=== FILE: README.md ===
# Tag service with JWT authentication — a verified model

This project models the core of a NestJS/Prisma REST service. Users sign up and log in, and receive a pair of JSON Web Tokens. They then manage tags they own. The model has three parts.

- **Authentication** (`SecurityService`):
  - the configuration defaults;
  - the in-memory list of redeemable refresh tokens;
  - `issueTokenPair`, `signup`, `login` and `refreshToken`.

  The list and the user table form the state (`Session`). Each operation is a pure function from a state to an `Outcome`: the result, plus the state afterwards. The state afterwards keeps any change made before a throw.
- **Tags** (`TagService`, `TagController`, `TagOrdering`):
  - the Tag table is a map from id to row, plus the next auto-increment id;
  - a listing is a stable sort by the requested key over the rows in id order, then skip, then take;
  - edit and delete go through the ownership gate;
  - batch creation returns its results by name.
- **Shaping and validation**:
  - the `Page` envelope (`Pagination`);
  - the `TagDto` and `UserDto` views (`Views`);
  - the validation rules of the request bodies (`SecurityDtos`, `TagDtos`, `UserDtos`);
  - the bearer guard's `validate` (`JwtStrategy`).

## Abstractions

- **Tokens** (`Jwt`). A token is a free constructor of three things: its claims, its signing options and its issue second. So signing is injective, and `Decode` is its inverse. `Garbage` stands for any other string a client presents. Decoding does not check the secret or the expiry, and redemption of a refresh token relies on decoding alone. Because the signer embeds the issue time in whole seconds, two tokens with the same claims signed in the same second are the same string. `SameSecondRefreshReissuesToken` shows what this does to redemption.
- **Store** (`UserStore`).
  - The User table is a sequence, and a lookup returns the first row holding the value.
  - `Unique` states the primary-key and unique constraints. The lemmas that need the constraints assume them.
  - Store failures other than constraint violations are an explicit `fault` parameter.
- **Caller-supplied functions**:
  - the password hash and the uid the store generates are parameters;
  - the hasher's check is a function `verify(hash, password)`;
  - the email-format check is a function `isEmail`;
  - the clock is the parameter `now`.
- **Request bodies.** A field is `None` when it is null or undefined.
- **Validation of tag bodies.** The validation pipe builds the body class of `POST /tags` and `PUT /tags/:id`, so a body there without `sortOrder` arrives with its declared default of 0. The body of `POST /tags/multiple` is declared as an array, which the pipe neither validates nor defaults (src/tag/tag.controller.ts:67). Its elements are taken with the name and sort order they carry, so an empty name can be stored there.

Tag names carry no unique constraint. The integration test creates two tags named `tag C`.

Login does not check the password; see Findings.

## Model

| member | source | states |
|---|---|---|
| UserStore.FindUnique | src/user/user.service.ts:24-34 | A lookup on a unique column finds nothing exactly when no row holds the value. What it finds is a row of the table holding the value. |
| UserStore.FindUniqueFindsRow | src/user/user.service.ts:24-34 | Under the unique constraints, looking a row up by its own uid, email or nickname returns that row. |
| UserStore.CreateUser | src/user/user.service.ts:20-22 | Creating a user fails with P2002 exactly when uid, email or nickname is taken, and a store fault propagates. Otherwise it appends the new row and keeps the unique constraints. |
| UserStore.DeleteUser | src/user/user.service.ts:43-45 | Deleting a user keeps exactly the other rows, after which the uid is not found. |
| Jwt.ParseKind | src/security/security.dtos.ts:10-14 | The token type is exactly one of "access" or "refresh", and each parses back to its own spelling. |
| Jwt.Sign | src/security/security.service.ts:121-128 | Decoding a signed token gives back its claims. |
| Jwt.SignedTokensEqualIff | src/security/security.service.ts:121-128 | Two signed tokens are equal exactly when claims, options and issue second are all equal. |
| SecurityDtos.RegisterViolations | src/security/security.dtos.ts:16-30 | A signup field is reported exactly when it breaks its rule: non-empty nickname, non-empty email in email format, non-empty password. |
| SecurityDtos.ValidateRegister | src/security/security.dtos.ts:16-30 | A signup body is accepted exactly when all three rules hold, and its fields are carried over unchanged. Otherwise it is a BadRequest. |
| SecurityDtos.AuthViolations | src/security/security.dtos.ts:32-48 | The nickname rule applies only when the email is null, and the email rules only when the nickname is null. The password rule always applies. |
| SecurityDtos.ValidateAuth | src/security/security.dtos.ts:32-48 | A login body is accepted exactly when no rule is broken. The identifiers stay optional in the result. |
| SecurityDtos.AuthNeedsAnIdentifier | src/security/security.dtos.ts:32-42 | A login body with neither nickname nor email is rejected. |
| SecurityDtos.AuthWithBothIdentifiersChecksOnlyPassword | src/security/security.dtos.ts:32-48 | With both identifiers present, only the password decides validity, even when both identifiers are empty. |
| SecurityDtos.AuthNeedsPassword | src/security/security.dtos.ts:44-47 | A login body without a non-empty password is rejected. |
| TagDtos.ValidateTagBody | src/tag/tag.dtos.ts:24-46 | A create or edit body is accepted exactly when the name is a non-empty string and any sort order is an integer. An absent sort order becomes 0. |
| UserDtos.ValidateEditUser | src/user/user.dtos.ts:37-47 | Both fields of a profile edit are optional. An edit is accepted exactly when any email present is in email format, and it passes through unchanged. |
| Views.TagDtoOf | src/tag/tag.dtos.ts:15-21 | A tag view copies id, name and sort order. The creator view comes from the explicit creator, else from the loaded relation, else it is absent. |
| Views.UserDtoOf | src/user/user.dtos.ts:17-24 | A user view copies uid, email and nickname and carries the hash. It has one plain tag view per tag, in order, taken from the loaded relation when present (even empty), else from the argument. |
| Pagination.NewPage | src/pagination.ts:11-18 | A page keeps its data unchanged, echoes offset and length, and its quantity is the number of items. |
| Pagination.DefaultPageIsEmpty | src/pagination.ts:11 | The default page is empty, with offset 0, length 10 and quantity 0. |
| TagOrdering.KeyFor | src/tag/tag.service.ts:43-54 | "name" selects name order and "sortOrder" selects sort-order order. Any other value, or none, falls back to id order. |
| TagOrdering.Insert | src/tag/tag.service.ts:43-49 | Inserting into a listing adds exactly one element and loses none. |
| TagOrdering.InsertSorted | src/tag/tag.service.ts:43-49 | Inserting into a sorted listing keeps it sorted. |
| TagOrdering.Sort | src/tag/tag.service.ts:43-49 | Ordering a listing is a permutation of it. |
| TagOrdering.SortSorted | src/tag/tag.service.ts:43-49 | An ordered listing is sorted by its key. |
| TagOrdering.ByIdOrder | src/tag/tag.service.ts:43 | Reading the table in key order yields every row exactly once. |
| TagOrdering.ByIdOrderAscending | src/tag/tag.service.ts:43 | Rows read in key order come in strictly ascending id. |
| TagService.GetById | src/tag/tag.service.ts:23-27 | A lookup succeeds exactly when a tag has the id and returns that tag. Otherwise it is NotFound. |
| TagService.IsUidCreatorOfTagById | src/tag/tag.service.ts:18-21 | The answer is true exactly when the uid is the tag's creator. A missing tag is NotFound. |
| TagService.GetByIdIncludeCreator | src/tag/tag.service.ts:29-36 | The tag comes with the user its creatorId references, if any. A missing tag is NotFound. |
| TagService.ListingIsSortedPermutation | src/tag/tag.service.ts:43-49 | The full listing for a key (`Listing`: the rows in id order, stably sorted by the key) is sorted by that key and holds exactly the stored rows. |
| TagService.Window | src/tag/tag.service.ts:44-46 | The window skips `offset` elements, clamped to the length, then keeps at most `length`, preserving order. |
| TagService.WindowOfSorted | src/tag/tag.service.ts:44-49 | A window of a sorted listing is sorted and holds only listed rows. |
| TagService.GetAllIncludeCreator | src/tag/tag.service.ts:38-54 | The result is, position for position, the window at `offset` of at most `length` rows of the listing sorted by the requested key, each row joined with its creator. |
| TagService.Filter | src/tag/tag.service.ts:56-68 | A filter keeps exactly the rows that satisfy the condition, each as often as the input holds it, and drops the rest. |
| TagService.FilterKeepsIdsAscending | src/tag/tag.service.ts:56-68 | Filtering rows listed in ascending id keeps them in ascending id. |
| TagService.TableFilterIdsDistinct | src/tag/tag.service.ts:56-68 | Filtering the rows of a table gives rows with pairwise distinct ids whenever the table is well formed. |
| TagService.GetAllForUser | src/tag/tag.service.ts:56-58 | The result holds exactly the stored tags whose creator is the uid. In a well-formed table each of them appears once (distinct ids). |
| TagService.GetManyByName | src/tag/tag.service.ts:60-68 | The result holds exactly the stored tags whose name is among the names, whoever created them. In a well-formed table each of them appears once (distinct ids), even when a name is requested twice. |
| TagService.CreateForUser | src/tag/tag.service.ts:81-88 | Creation fails with P2003 exactly when no user has the uid. Otherwise the new row has the next id, creatorId = uid and the body's fields, and the table invariant is kept. |
| TagService.InsertRows | src/tag/tag.service.ts:70-79 | A batch insert adds one row per body, with consecutive ids in body order and creatorId = uid. Every older row stays as it was. |
| TagService.RowsFromCons | src/tag/tag.service.ts:70-79 | A batch's rows are the row of its first body at the first id, followed by the rows of the remaining bodies at the following ids. |
| TagService.CreateManyForUser | src/tag/tag.service.ts:70-79 | Batch creation is all or nothing. A non-empty batch for an unknown uid fails with P2003. Otherwise it has the effect of the batch insert. |
| TagService.EditById | src/tag/tag.service.ts:90-97 | An edit changes only the name and sort order of the addressed tag, keeping its id and creator. Other tags are unchanged, and a missing tag is NotFound. |
| TagService.DeleteById | src/tag/tag.service.ts:99-101 | A delete removes exactly the tag with the id. A missing id is rejected by the store (P2025). |
| TagController.GetPaginated | src/tag/tag.controller.ts:30-46 | Absent query values become offset 0, length 10 and sortBy "sortOrder". The page echoes offset and length, and its quantity counts the returned views, which match the listed rows one for one, each with the view of that row's creator (uid, email and nickname, no tags) when the creator exists. |
| TagController.DefaultOrderIsSortOrder | src/tag/tag.controller.ts:31-33 | Without sortBy, the page is in ascending sort order. |
| TagController.EmptyTableGivesDefaultPage | src/tag/tag.controller.ts:30-46 | With no tags and no query values, the result is the default empty page. |
| TagController.FirstOfFirstPageIsLeast | src/tag/tag.controller.ts:30-46 | On a page starting at offset 0, the first tag precedes every stored tag in the requested order. |
| TagController.GetById | src/tag/tag.controller.ts:50-52 | A tag view comes back exactly when the id exists, with a creator view exactly when the creator exists; that view carries the creator's uid, email and nickname, and no tags. Otherwise it is NotFound. |
| TagController.Create | src/tag/tag.controller.ts:56-61 | Creation succeeds exactly when a user has the caller's uid, and otherwise fails with P2003 and changes nothing. On success exactly one row is added, at the next id, owned by the caller and carrying the body's name and sort order. |
| TagController.PlainViews | src/tag/tag.controller.ts:70-72 | There is one creator-less view per row, at the row's position. |
| TagController.PlainViewsMembers | src/tag/tag.controller.ts:70-72 | Every row has its view among the views, and every view comes from a row. |
| TagController.CreateMultiple | src/tag/tag.controller.ts:65-73 | The batch fails with P2003 and changes nothing exactly when it is non-empty and no user has the caller's uid. Otherwise it first inserts one row per body at consecutive ids, leaving older rows as they were, and then returns every stored tag whose name was requested, and nothing else. In a well-formed table each is returned once (distinct ids). |
| TagController.CreateMultipleReturnsExistingTags | src/tag/tag.controller.ts:69-72 | The batch result includes tags that existed before, including other users' tags, whenever their name was requested. |
| TagController.EditById | src/tag/tag.controller.ts:77-85 | A missing tag is NotFound before ownership is checked, and a non-owner is Forbidden. In both cases nothing changes. The owner gets the edited view, only that row changes, and the next id stays. |
| TagController.DeleteById | src/tag/tag.controller.ts:89-96 | A missing tag is NotFound before ownership is checked, and a non-owner is Forbidden. In both cases nothing changes. The owner's delete removes exactly that tag. |
| TagController.DeleteThenGetIsNotFound | src/tag/tag.controller.ts:89-96 | After the owner deletes a tag, reading it is NotFound. |
| TagController.EditThenGetShowsEdit | src/tag/tag.controller.ts:77-85 | After the owner edits a tag, reading it shows the new name and sort order, with the same creator. |
| SecurityService.PropsOf | src/security/security.service.ts:30-38 | Access and refresh share one secret. An unset or empty value falls back to its default: "change-me", "30m" and "30d". |
| SecurityService.IssueTokenPair | src/security/security.service.ts:116-136 | Exactly the new refresh token is appended to the list. Both tokens carry sub = uid and the user's email, differ in type, and are signed with the access options. `expiresIn` is the access lifetime. |
| SecurityService.RefreshTokenCarriesAccessLifetime | src/security/security.service.ts:125-128 | Under the default configuration, the refresh token carries "30m", not the refresh lifetime "30d". |
| SecurityService.IssueTokenPairIntended | src/security/security.service.ts:116-136 | The corrected issue signs the refresh token with the refresh options. |
| SecurityService.SignupError | src/security/security.service.ts:50-57 | The error is Forbidden exactly for a P2002 store error. Every other error propagates unchanged. |
| SecurityService.Signup | src/security/security.service.ts:41-57 | Signup is Forbidden exactly when uid, email or nickname is taken, and a store fault propagates. A failure leaves the state unchanged. Success appends the user and returns exactly the pair `issueTokenPair` issues for it, whose `expiresIn` is the access lifetime. |
| SecurityService.SignupTwiceIsForbidden | src/security/security.service.ts:41-57 | Signing up again with the same data is Forbidden and changes nothing. |
| SecurityService.FindLoginUser | src/security/security.service.ts:61-69 | The lookup is by email whenever the email is truthy, else by nickname when that is truthy, else BadRequest. An unknown user is Forbidden. |
| SecurityService.VerifyMatch | src/security/security.service.ts:98-114 | As written, the password check (`userHashMatchesPassword` negated inside `verifyMatch`) always passes. |
| SecurityService.VerifyMatchAwaited | src/security/security.service.ts:98-114 | The corrected check passes exactly when the hasher accepts the password (`userHashMatchesPassword`, modelled as `verify(hash, password)`), and otherwise fails with Unauthorized. |
| SecurityService.Login | src/security/security.service.ts:60-72 | Login succeeds exactly when the user lookup does. It returns the pair issued for that user, both tokens claiming its uid and email, and appends the refresh token. A failure changes nothing. |
| SecurityService.LoginIgnoresPassword | src/security/security.service.ts:70 | The login outcome does not depend on the password or on the hasher. |
| SecurityService.WrongPasswordLogsIn | src/security/security.service.ts:70 | A known user whose password the hasher rejects still logs in. |
| SecurityService.LoginIntended | src/security/security.service.ts:60-72 | The corrected login succeeds exactly when the user is found and the hasher accepts the password. A rejected password is Unauthorized and changes nothing. |
| SecurityService.LoginAfterSignup | src/security/security.service.ts:41-72 | After a signup, logging in with the new email succeeds, with an access token for the new uid. |
| SecurityService.IndexOf | src/security/security.service.ts:75 | The result is -1 exactly when the token is not listed. Otherwise it is the first position holding the token. |
| SecurityService.RemoveAt | src/security/security.service.ts:78 | The list loses exactly the element at the position, and every other element keeps its order. |
| SecurityService.Reissue | src/security/security.service.ts:79-85 | Once a token is taken off the list, a token that cannot be decoded, or a subject that cannot be found, gives a TypeError and leaves the token consumed. Otherwise the result is exactly the pair issued for the subject, whose `expiresIn` is the access lifetime. |
| SecurityService.RefreshToken | src/security/security.service.ts:74-86 | An unlisted token is Unauthorized and changes nothing. Otherwise the first occurrence is removed before decoding and lookup, and success depends only on listing, decodability and the subject's existence. |
| SecurityService.RefreshConsumesOneOccurrence | src/security/security.service.ts:75-78 | A redemption removes one occurrence of the token. The token comes back only if the new refresh token is the same string. |
| SecurityService.RedeemedTokenIsSpent | src/security/security.service.ts:75-78 | A token listed once cannot be redeemed a second time, unless it was issued in the same second as its redemption. |
| SecurityService.SameSecondRefreshReissuesToken | src/security/security.service.ts:116-129 | A refresh in the same second as the token's issue hands back the very same token, which can be redeemed again. |
| SecurityService.SignupKeepsStorageWf | src/security/security.service.ts:41-57 | Signup only ever lists refresh tokens signed with the access options. |
| SecurityService.LoginKeepsStorageWf | src/security/security.service.ts:60-72 | Login only ever lists refresh tokens signed with the access options. |
| SecurityService.RefreshKeepsStorageWf | src/security/security.service.ts:74-86 | A refresh only ever lists refresh tokens signed with the access options. |
| SecurityService.AccessTokenIsNotRedeemable | src/security/security.service.ts:74-77 | With the list well formed, presenting an access token is Unauthorized and changes nothing. |
| JwtStrategy.Validate | src/security/security.jwt.ts:27-32 | A user comes back exactly when one has the subject's uid, with the hash removed and the other fields as stored. Otherwise it is Unauthorized. |
| JwtStrategy.ValidateReturnsStoredUser | src/security/security.jwt.ts:27-31 | Under the unique constraints, the stored record of the subject is returned whatever email and type the token claims. |
| JwtStrategy.DeletedUserIsUnauthorized | src/security/security.jwt.ts:28-29 | Once the subject is deleted, its tokens are Unauthorized. |

## Left out

- Hashing: argon2 is not modelled. The stored hash is a parameter and the hasher's check is an uninterpreted function. A hashing failure during signup is not modelled.
- Tokens: signing cryptography, token encoding, parsing of lifetime strings such as "30m", and expiry are not modelled. Bearer-token extraction in front of `validate` is left out, so `validate` takes the decoded claims. Verification of the guard's secret is left out too.
- Store internals: Prisma itself is not modelled, and neither is the generation of user uids, which are a parameter. Connection failures exist only as the `fault` parameter of user creation.
- Tie order: rows with equal sort keys are listed in id order. The database does not define this order; the exact window that `TagService.GetAllIncludeCreator` states is the window of this id-tie-broken order.
- Collation: names compare by character code, not by the database collation.
- Query values:
  - a `sortBy` that names an inherited object property (such as "toString") is treated like any other unknown key;
  - request values of the wrong JSON type are not modelled.
- TagController.GetPaginated: `offset` and `length` are `nat`. A negative `length`, which the store reads as taking rows from the end of the ordered listing, and a negative `offset`, which the store rejects, are not modelled.
- TagDtos.ValidateTagBody: an explicit null `sortOrder` is treated like an absent one and becomes 0. The source lets null through validation and passes it on to the store, whose handling of it is not modelled.
- TagController.CreateMultiple: the array body is neither validated nor defaulted. Its elements are modelled as validated inputs with the name and sort order they carry; missing or ill-typed fields in them are not modelled.
- TagService.CreateManyForUser: the bodies carry only a name and a sort order. The unvalidated elements of `POST /tags/multiple` can carry further columns such as `id`, which the spread into `createMany` passes on (src/tag/tag.service.ts:75-77). A client can then choose row ids, and a later create can collide with P2002. The consecutive-ids promise holds only for bodies without such fields.
- SecurityService.IssueTokenPair: both tokens carry the one issue second `now`. The source awaits two separate signings, each embedding its own second, so the two issue times can differ when a second boundary falls between them.
- Concurrency: every operation is atomic and sequential. The race on the token list is not modelled, nor are the un-awaited deletes of tags and users. `TagController.DeleteById` applies the delete at once and never reports its failure.
- HTTP layer: wiring, status codes, serialisation (the `@Exclude` on `passwordHash` is represented only by the field being optional), Swagger, the module files and the request param decorators are not modelled.
- Pass-through controllers: the authentication and user controllers are not modelled, beyond the user-service calls this model uses.
- TypeError in refresh: the TypeError a refresh raises after the subject's deletion is modelled as a plain `TypeError` error. It happens after the token has been consumed.
- Storage: the list holds token values, not their string encodings.

## Findings

| source | as written | input that shows it | evidently intended | confidence | as-written member | corrected member |
|---|---|---|---|---|---|---|
| src/security/security.service.ts:70, 111-114 | `verifyMatch` negates a promise that it never awaits, so the condition is always false, and the caller does not await `verifyMatch` either | A known email with a password the hasher rejects still logs in (`WrongPasswordLogsIn`) | A wrong password fails with Unauthorized | high; not executed | SecurityService.Login | SecurityService.LoginIntended |
| src/security/security.service.ts:125-128 | The refresh token is signed with the access-token options | Default configuration: the refresh token carries "30m", not "30d" (`RefreshTokenCarriesAccessLifetime`) | Sign the refresh token with the refresh-token options | high; not executed | SecurityService.IssueTokenPair | SecurityService.IssueTokenPairIntended |

The rest of the model uses the as-written definitions, because those are what the service does.

=== FILE: int_sets.dfy ===
/** The least element of a finite set of integers. */
module IntSets {

  /** Some element of a non-empty set. */
  lemma PickKey(keys: set<int>) returns (y: int)
    requires keys != {}
    ensures y in keys
  {
    assert exists e :: e in keys by {
      if forall e :: e !in keys {
        assert false;
      }
    }
    y :| y in keys;
  }

  lemma {:induction false} HasMinimum(keys: set<int>)
    requires keys != {}
    ensures exists m :: m in keys && forall x :: x in keys ==> m <= x
    decreases |keys|
  {
    var y := PickKey(keys);
    if keys != {y} {
      HasMinimum(keys - {y});
      var m :| m in keys - {y} && forall x :: x in keys - {y} ==> m <= x;
      var least := if y < m then y else m;
      forall x | x in keys
        ensures least <= x
      {
        if x != y {
          assert x in keys - {y};
        }
      }
    } else {
      assert forall x :: x in keys ==> y <= x;
    }
  }

  /** The least key of a non-empty set. */
  function MinKey(keys: set<int>): (m: int)
    requires keys != {}
    ensures m in keys && forall x :: x in keys ==> m <= x
  {
    HasMinimum(keys);
    var m :| m in keys && forall x :: x in keys ==> m <= x;
    m
  }
}

=== FILE: jwt.dfy ===
/** JSON Web Tokens, abstracted: signing is a free (hence injective) constructor
    of the claims, the signing options and the issue time, and decoding is its
    inverse. No cryptography, encoding or expiry checking is modelled. */
module Jwt {
  import opened Wrappers

  /** The `type` claim of a token. */
  datatype TokenKind = Access | Refresh

  /** The wire spelling of a token kind. */
  function KindName(k: TokenKind): string {
    match k
    case Access => "access"
    case Refresh => "refresh"
  }

  /** Reads a `type` claim back; only the two spellings of `KindName` are accepted. */
  function ParseKind(s: string): (r: Option<TokenKind>)
    ensures r.Some? <==> s == "access" || s == "refresh"
    ensures r.Some? ==> KindName(r.value) == s
  {
    if s == "access" then Some(Access)
    else if s == "refresh" then Some(Refresh)
    else None
  }

  /** The claims of a token (the JWT payload): kind, subject uid and email. */
  datatype Claims = Claims(kind: TokenKind, sub: string, email: string)

  /** The options a token is signed with: the secret and the lifetime string
      (such as "30m"), which is not interpreted. */
  datatype SignOptions = SignOptions(secret: string, expiresIn: string)

  /** A token string. `Signed` is what signing produces; `issuedAt` is the
      issue time in whole seconds, which the signer embeds. `Garbage` is any
      other string a client may present. */
  datatype Token =
    | Signed(claims: Claims, options: SignOptions, issuedAt: nat)
    | Garbage(text: string)

  /** Signs `claims` with `options` at time `now` (seconds). */
  function Sign(claims: Claims, options: SignOptions, now: nat): (t: Token)
    ensures Decode(t) == Some(claims)
  {
    Signed(claims, options, now)
  }

  /** Reads the claims of a token without verifying it; a string that is not
      a token decodes to nothing (null). */
  function Decode(t: Token): Option<Claims> {
    match t
    case Signed(c, _, _) => Some(c)
    case Garbage(_) => None
  }

  /** Two signatures coincide only when claims, options and issue second all
      coincide: tokens are distinguished by nothing else. */
  lemma SignedTokensEqualIff(c1: Claims, o1: SignOptions, n1: nat, c2: Claims, o2: SignOptions, n2: nat)
    ensures Sign(c1, o1, n1) == Sign(c2, o2, n2) <==> c1 == c2 && o1 == o2 && n1 == n2
  {
  }
}

=== FILE: jwt_strategy.dfy ===
/** The bearer-token guard's `validate`: it re-resolves the token's subject on
    every request and hands on the user without the password hash. */
module JwtStrategy {
  import opened Wrappers
  import opened Models
  import opened Errors
  import opened UserStore
  import opened Jwt

  /** A user record with the password hash removed. */
  datatype SafeUser = SafeUser(uid: string, email: string, nickname: string)

  function Strip(u: User): SafeUser {
    SafeUser(u.uid, u.email, u.nickname)
  }

  /** Resolves the subject of a decoded token; the email and kind claims are
      not consulted. A subject with no user is Unauthorized. */
  function Validate(users: UserTable, payload: Claims): (r: Result<SafeUser, Error>)
    ensures r.Ok? <==> exists u :: u in users && u.uid == payload.sub
    ensures r.Err? ==> r.error == Unauthorized
    ensures r.Ok? ==> exists u :: u in users && u.uid == payload.sub && r.value == Strip(u)
  {
    match FindUnique(users, ByUid, payload.sub)
    case None => Err(Unauthorized)
    case Some(user) => Ok(Strip(user))
  }

  /** Under the unique constraints the stored record of the subject is
      returned field for field, whatever email and kind the token claims. */
  lemma ValidateReturnsStoredUser(users: UserTable, i: int, kind: TokenKind, email: string)
    requires Unique(users) && 0 <= i < |users|
    ensures var r := Validate(users, Claims(kind, users[i].uid, email));
      && r.Ok?
      && r.value.uid == users[i].uid
      && r.value.email == users[i].email
      && r.value.nickname == users[i].nickname
  {
  }

  /** Once the subject is deleted, its tokens no longer authenticate. */
  lemma DeletedUserIsUnauthorized(users: UserTable, payload: Claims)
    ensures Validate(DeleteUser(users, payload.sub), payload) == Err(Unauthorized)
  {
  }
}

=== FILE: models.dfy ===
/** Rows of the relational store and the errors the store reports. */
module Models {

  /** A row of the User table. `uid` is the primary key; `email` and `nickname`
      carry unique constraints. */
  datatype User = User(uid: string, email: string, nickname: string, passwordHash: string)

  /** A row of the Tag table. `id` is an auto-incremented primary key and
      `creatorId` references `User.uid`. Tag names carry no unique constraint. */
  datatype Tag = Tag(id: int, name: string, sortOrder: int, creatorId: string)

  /** An error raised by the store: a known request error carries the store's
      error code, anything else is opaque. */
  datatype DbError = KnownRequest(code: string) | Unknown(message: string)

  /** Store error code for a unique-constraint violation. */
  const UniqueViolation: string := "P2002"
  /** Store error code for a foreign-key violation. */
  const ForeignKeyViolation: string := "P2003"
  /** Store error code for an update or delete whose record does not exist. */
  const RecordNotFound: string := "P2025"
}

/** The exception kinds the services throw, one per HTTP exception class. */
module Errors {
  import opened Models

  datatype Error =
    | BadRequest           // 400
    | Unauthorized         // 401
    | Forbidden            // 403
    | NotFound             // 404
    | Store(cause: DbError) // a store error propagated unchanged (500)
    | TypeError            // a runtime type error, e.g. a property read on null (500)
}

=== FILE: pagination.dfy ===
/** The page envelope returned by paginated listings. */
module Pagination {

  datatype Meta = Meta(offset: int, length: int, quantity: nat)

  datatype Page<T> = Page(data: seq<T>, meta: Meta)

  /** A page is consistent when its quantity counts the items it holds. */
  predicate Consistent<T>(p: Page<T>) {
    p.meta.quantity == |p.data|
  }

  /** `new Page(data, offset, length)`, with the constructor's defaults. */
  function NewPage<T>(data: seq<T> := [], offset: int := 0, length: int := 10): (p: Page<T>)
    ensures Consistent(p)
    ensures p.data == data
    ensures p.meta.offset == offset && p.meta.length == length
  {
    Page(data, Meta(offset, length, |data|))
  }

  /** The default page is empty and describes the window offset 0, length 10. */
  lemma DefaultPageIsEmpty<T>()
    ensures NewPage<T>() == Page([], Meta(0, 10, 0))
  {
  }
}

=== FILE: security_dtos.dfy ===
/** Request and response shapes of the authentication endpoints and the
    validation rules the validation pipe applies to request bodies. A body
    field is `None` when it is null or undefined; non-string JSON values are
    not modelled. */
module SecurityDtos {
  import opened Wrappers
  import opened Errors
  import opened Jwt

  /** The response of signup, login and refresh. */
  datatype AccessTokenDto = AccessTokenDto(accessToken: Token, expiresIn: string, refreshToken: Token)

  /** `IsNotEmpty` on a string field: present and not the empty string. */
  predicate NotEmpty(v: Option<string>) {
    v.Some? && v.value != ""
  }

  /** `IsNotEmpty` together with `IsEmail`; `isEmail` is the format check of
      the validation library, which is not modelled. */
  predicate EmailOk(v: Option<string>, isEmail: string -> bool) {
    NotEmpty(v) && isEmail(v.value)
  }

  // ---------------------------------------------------------------- signup

  datatype RegisterBody = RegisterBody(nickname: Option<string>, email: Option<string>, password: Option<string>)

  /** A validated signup request. */
  datatype RegisterDto = RegisterDto(nickname: string, email: string, password: string)

  /** The names of the fields of a signup body that break a rule. */
  function RegisterViolations(b: RegisterBody, isEmail: string -> bool): (r: seq<string>)
    ensures "nickname" in r <==> !NotEmpty(b.nickname)
    ensures "email" in r <==> !EmailOk(b.email, isEmail)
    ensures "password" in r <==> !NotEmpty(b.password)
    ensures forall f :: f in r ==> f in ["nickname", "email", "password"]
  {
    (if NotEmpty(b.nickname) then [] else ["nickname"])
    + (if NotEmpty(b.email) && isEmail(b.email.value) then [] else ["email"])
    + (if NotEmpty(b.password) then [] else ["password"])
  }

  /** Validation of a signup body: all three fields are required and non-empty
      and the email must be in email format. */
  function ValidateRegister(b: RegisterBody, isEmail: string -> bool): (r: Result<RegisterDto, Error>)
    ensures r.Ok? <==> NotEmpty(b.nickname) && EmailOk(b.email, isEmail) && NotEmpty(b.password)
    ensures r.Ok? ==>
      r.value.nickname == b.nickname.value && r.value.email == b.email.value
      && r.value.password == b.password.value
    ensures r.Err? ==> r.error == BadRequest
  {
    if RegisterViolations(b, isEmail) == [] then
      Ok(RegisterDto(b.nickname.value, b.email.value, b.password.value))
    else
      Err(BadRequest)
  }

  // ----------------------------------------------------------------- login

  datatype AuthBody = AuthBody(nickname: Option<string>, email: Option<string>, password: Option<string>)

  /** A validated login request: the identifiers stay optional. */
  datatype AuthDto = AuthDto(nickname: Option<string>, email: Option<string>, password: string)

  /** The names of the fields of a login body that break a rule. The nickname
      rule applies only when the email is null, the email rules only when the
      nickname is null; the password rule always applies. */
  function AuthViolations(b: AuthBody, isEmail: string -> bool): (r: seq<string>)
    ensures "nickname" in r <==> b.email.None? && !NotEmpty(b.nickname)
    ensures "email" in r <==> b.nickname.None? && !EmailOk(b.email, isEmail)
    ensures "password" in r <==> !NotEmpty(b.password)
    ensures forall f :: f in r ==> f in ["nickname", "email", "password"]
  {
    var checkNickname := b.email.None?;
    var checkEmail := b.nickname.None?;
    (if checkNickname && !NotEmpty(b.nickname) then ["nickname"] else [])
    + (if checkEmail && !(NotEmpty(b.email) && isEmail(b.email.value)) then ["email"] else [])
    + (if NotEmpty(b.password) then [] else ["password"])
  }

  function ValidateAuth(b: AuthBody, isEmail: string -> bool): (r: Result<AuthDto, Error>)
    ensures r.Ok? <==> AuthViolations(b, isEmail) == []
    ensures r.Ok? ==> r.value == AuthDto(b.nickname, b.email, b.password.value)
    ensures r.Err? ==> r.error == BadRequest
  {
    if AuthViolations(b, isEmail) == [] then Ok(AuthDto(b.nickname, b.email, b.password.value))
    else Err(BadRequest)
  }

  /** A login body with neither identifier is rejected, whatever its password. */
  lemma AuthNeedsAnIdentifier(b: AuthBody, isEmail: string -> bool)
    requires b.nickname.None? && b.email.None?
    ensures ValidateAuth(b, isEmail) == Err(BadRequest)
  {
  }

  /** With both identifiers present neither identifier rule applies: only the
      password decides, so even two empty identifiers pass. */
  lemma AuthWithBothIdentifiersChecksOnlyPassword(b: AuthBody, isEmail: string -> bool)
    requires b.nickname.Some? && b.email.Some?
    ensures ValidateAuth(b, isEmail).Ok? <==> NotEmpty(b.password)
  {
  }

  /** A login body without a non-empty password is rejected. */
  lemma AuthNeedsPassword(b: AuthBody, isEmail: string -> bool)
    requires !NotEmpty(b.password)
    ensures ValidateAuth(b, isEmail) == Err(BadRequest)
  {
  }
}

=== FILE: security_service.dfy ===
/** The authentication service: configuration defaults, token-pair issue,
    signup, login and refresh-token redemption over an in-memory list of
    redeemable refresh tokens. Operations are atomic and sequential; the
    store, the signer and the password hasher are abstract. */
module SecurityService {
  import opened Wrappers
  import opened Models
  import opened Errors
  import opened UserStore
  import opened Jwt
  import opened SecurityDtos

  // -------------------------------------------------------- configuration

  /** The configuration values read from the environment; `None` when unset. */
  datatype Config = Config(jwtSecret: Option<string>, accessLifetime: Option<string>,
                           refreshLifetime: Option<string>)

  const DefaultSecret: string := "change-me"
  const DefaultAccessLifetime: string := "30m"
  const DefaultRefreshLifetime: string := "30d"

  /** JavaScript truthiness of an optional string: present and not empty. */
  predicate Truthy(v: Option<string>) {
    v.Some? && v.value != ""
  }

  /** JavaScript `value || fallback` on an optional string. */
  function OrElse(v: Option<string>, fallback: string): string {
    if Truthy(v) then v.value else fallback
  }

  /** The frozen signing options of access and refresh tokens. */
  datatype Props = Props(access: SignOptions, refresh: SignOptions)

  /** The signing options the constructor derives from the configuration: one
      shared secret, two lifetimes, each falling back to its default when the
      value is unset or empty. */
  function PropsOf(c: Config): (p: Props)
    ensures p.access.secret == p.refresh.secret
    ensures Truthy(c.jwtSecret) ==> p.access.secret == c.jwtSecret.value
    ensures !Truthy(c.jwtSecret) ==> p.access.secret == DefaultSecret
    ensures Truthy(c.accessLifetime) ==> p.access.expiresIn == c.accessLifetime.value
    ensures !Truthy(c.accessLifetime) ==> p.access.expiresIn == DefaultAccessLifetime
    ensures Truthy(c.refreshLifetime) ==> p.refresh.expiresIn == c.refreshLifetime.value
    ensures !Truthy(c.refreshLifetime) ==> p.refresh.expiresIn == DefaultRefreshLifetime
  {
    var secret := OrElse(c.jwtSecret, DefaultSecret);
    Props(SignOptions(secret, OrElse(c.accessLifetime, DefaultAccessLifetime)),
          SignOptions(secret, OrElse(c.refreshLifetime, DefaultRefreshLifetime)))
  }

  // ---------------------------------------------------------------- state

  /** The service state: the list of redeemable refresh tokens and the user table. */
  datatype Session = Session(storage: seq<Token>, users: UserTable)

  /** The result of an operation together with the state afterwards. An
      operation that throws part-way keeps the changes made before the throw. */
  datatype Outcome = Outcome(result: Result<AccessTokenDto, Error>, state: Session)

  /** The signed tokens of a new pair and the token list after registering
      the refresh token. */
  datatype Issued = Issued(dto: AccessTokenDto, storage: seq<Token>)

  // ------------------------------------------------------------ token pair

  /** Issues an access and a refresh token for `user` at time `now` and
      appends the refresh token to the list. Both tokens are signed with the
      access-token options, and `expiresIn` reports the access lifetime. */
  function IssueTokenPair(props: Props, storage: seq<Token>, user: User, now: nat): (r: Issued)
    ensures r.storage == storage + [r.dto.refreshToken]
    ensures Decode(r.dto.accessToken) == Some(Claims(Access, user.uid, user.email))
    ensures Decode(r.dto.refreshToken) == Some(Claims(Refresh, user.uid, user.email))
    ensures r.dto.accessToken.Signed? && r.dto.accessToken.options == props.access
    ensures r.dto.refreshToken.Signed? && r.dto.refreshToken.options == props.access
    ensures r.dto.accessToken.issuedAt == now && r.dto.refreshToken.issuedAt == now
    ensures r.dto.expiresIn == props.access.expiresIn
    ensures r.dto.accessToken != r.dto.refreshToken
  {
    var accessToken := Sign(Claims(Access, user.uid, user.email), props.access, now);
    var refreshToken := Sign(Claims(Refresh, user.uid, user.email), props.access, now);
    Issued(AccessTokenDto(accessToken, props.access.expiresIn, refreshToken), storage + [refreshToken])
  }

  /** Under the default configuration the refresh token is signed with the
      30-minute access lifetime instead of the 30-day refresh lifetime. */
  lemma RefreshTokenCarriesAccessLifetime(storage: seq<Token>, user: User, now: nat)
    ensures var props := PropsOf(Config(None, None, None));
      && IssueTokenPair(props, storage, user, now).dto.refreshToken.options.expiresIn == "30m"
      && props.refresh.expiresIn == "30d"
  {
  }

  /** The corrected issue: the refresh token is signed with the refresh options. */
  function IssueTokenPairIntended(props: Props, storage: seq<Token>, user: User, now: nat): (r: Issued)
    ensures r.storage == storage + [r.dto.refreshToken]
    ensures Decode(r.dto.accessToken) == Some(Claims(Access, user.uid, user.email))
    ensures Decode(r.dto.refreshToken) == Some(Claims(Refresh, user.uid, user.email))
    ensures r.dto.accessToken.Signed? && r.dto.accessToken.options == props.access
    ensures r.dto.refreshToken.Signed? && r.dto.refreshToken.options == props.refresh
    ensures r.dto.expiresIn == props.access.expiresIn
  {
    var accessToken := Sign(Claims(Access, user.uid, user.email), props.access, now);
    var refreshToken := Sign(Claims(Refresh, user.uid, user.email), props.refresh, now);
    Issued(AccessTokenDto(accessToken, props.access.expiresIn, refreshToken), storage + [refreshToken])
  }

  // ---------------------------------------------------------------- signup

  /** The catch block of signup: a unique-constraint violation becomes
      Forbidden, any other store error propagates unchanged. */
  function SignupError(e: DbError): (r: Error)
    ensures r == Forbidden <==> e == KnownRequest(UniqueViolation)
    ensures r != Forbidden ==> r == Store(e)
  {
    if e.KnownRequest? && e.code == UniqueViolation then Forbidden else Store(e)
  }

  /** Creates the user from a validated registration and issues a pair.
      `hashed` is the password hash the hasher produced, `uid` the key the
      store generates and `fault` an environment failure of the store. */
  function Signup(props: Props, st: Session, reg: RegisterDto, hashed: string, uid: string,
                  fault: Option<DbError>, now: nat): (r: Outcome)
    ensures r.result.Err? ==> r.state == st
    ensures fault.Some? ==> r.result == Err(SignupError(fault.value))
    ensures fault.None? ==>
      (r.result == Err(Forbidden) <==> Conflicts(st.users, uid, reg.email, reg.nickname))
    ensures fault.None? ==> (r.result.Ok? <==> !Conflicts(st.users, uid, reg.email, reg.nickname))
    ensures r.result.Ok? ==>
      && r.state.users == st.users + [User(uid, reg.email, reg.nickname, hashed)]
      && r.state.storage == st.storage + [r.result.value.refreshToken]
      && Decode(r.result.value.accessToken) == Some(Claims(Access, uid, reg.email))
      && Decode(r.result.value.refreshToken) == Some(Claims(Refresh, uid, reg.email))
      && r.result.value.expiresIn == props.access.expiresIn
      && r.result.value == IssueTokenPair(props, st.storage, User(uid, reg.email, reg.nickname, hashed), now).dto
  {
    match CreateUser(st.users, UserCreation(reg.email, reg.nickname, hashed), uid, fault)
    case Err(e) => Outcome(Err(SignupError(e)), st)
    case Ok(created) =>
      var issued := IssueTokenPair(props, st.storage, created.0, now);
      Outcome(Ok(issued.dto), Session(issued.storage, created.1))
  }

  /** Signing up again with the same email or nickname is Forbidden and
      changes nothing. */
  lemma SignupTwiceIsForbidden(props: Props, st: Session, reg: RegisterDto, hashed: string,
                               uid: string, hashed2: string, uid2: string, now: nat, later: nat)
    requires Signup(props, st, reg, hashed, uid, None, now).result.Ok?
    ensures var st2 := Signup(props, st, reg, hashed, uid, None, now).state;
      Signup(props, st2, reg, hashed2, uid2, None, later) == Outcome(Err(Forbidden), st2)
  {
  }

  // ----------------------------------------------------------------- login

  /** The user a login names: by email whenever the email is truthy, else by
      nickname when that is truthy, else BadRequest; an unknown user is
      Forbidden. */
  function FindLoginUser(users: UserTable, auth: AuthDto): (r: Result<User, Error>)
    ensures !Truthy(auth.email) && !Truthy(auth.nickname) ==> r == Err(BadRequest)
    ensures Truthy(auth.email) ==>
      (r.Ok? <==> exists u :: u in users && u.email == auth.email.value)
    ensures !Truthy(auth.email) && Truthy(auth.nickname) ==>
      (r.Ok? <==> exists u :: u in users && u.nickname == auth.nickname.value)
    ensures Truthy(auth.email) && r.Ok? ==> r.value in users && r.value.email == auth.email.value
    ensures !Truthy(auth.email) && r.Ok? ==> r.value in users && r.value.nickname == auth.nickname.value
    ensures r.Err? && (Truthy(auth.email) || Truthy(auth.nickname)) ==> r.error == Forbidden
  {
    var found: Result<Option<User>, Error> :=
      if Truthy(auth.email) then Ok(FindUnique(users, ByEmail, auth.email.value))
      else if Truthy(auth.nickname) then Ok(FindUnique(users, ByNickname, auth.nickname.value))
      else Err(BadRequest);
    match found
    case Err(e) => Err(e)
    case Ok(None) => Err(Forbidden)
    case Ok(Some(user)) => Ok(user)
  }

  /** A promise that nobody awaits: as an object it is truthy whatever it
      will settle to. */
  datatype Pending<T> = Pending(settlesTo: T)

  /** JavaScript truthiness of an object. */
  predicate ObjectIsTruthy<T>(p: Pending<T>) {
    true
  }

  /** The password comparison as a (pending) promise of the hasher's verdict;
      `verify(hash, password)` is the hasher's check. */
  function UserHashMatchesPassword(user: User, pw: string, verify: (string, string) -> bool): Pending<bool> {
    Pending(verify(user.passwordHash, pw))
  }

  /** The password check as written: it negates the un-awaited promise, which
      is always truthy, so it never fails. */
  function VerifyMatch(user: User, pw: string, verify: (string, string) -> bool): (r: Result<(), Error>)
    ensures r.Ok?
  {
    if !ObjectIsTruthy(UserHashMatchesPassword(user, pw, verify)) then Err(Unauthorized) else Ok(())
  }

  /** The password check as documented: it fails exactly when the hasher
      rejects the password. */
  function VerifyMatchAwaited(user: User, pw: string, verify: (string, string) -> bool): (r: Result<(), Error>)
    ensures r.Ok? <==> verify(user.passwordHash, pw)
    ensures r.Err? ==> r.error == Unauthorized
  {
    if !UserHashMatchesPassword(user, pw, verify).settlesTo then Err(Unauthorized) else Ok(())
  }

  /** Login as written. The password check is started but not awaited, so its
      outcome never affects the result. */
  function Login(props: Props, st: Session, auth: AuthDto, verify: (string, string) -> bool, now: nat): (r: Outcome)
    ensures r.state.users == st.users
    ensures r.result.Ok? <==> FindLoginUser(st.users, auth).Ok?
    ensures r.result.Err? ==> r.result == Err(FindLoginUser(st.users, auth).error) && r.state == st
    ensures r.result.Ok? ==>
      var user := FindLoginUser(st.users, auth).value;
      && Decode(r.result.value.accessToken) == Some(Claims(Access, user.uid, user.email))
      && Decode(r.result.value.refreshToken) == Some(Claims(Refresh, user.uid, user.email))
      && r.result.value == IssueTokenPair(props, st.storage, user, now).dto
      && r.state.storage == st.storage + [r.result.value.refreshToken]
  {
    match FindLoginUser(st.users, auth)
    case Err(e) => Outcome(Err(e), st)
    case Ok(user) =>
      var unawaited := VerifyMatch(user, auth.password, verify);
      var issued := IssueTokenPair(props, st.storage, user, now);
      Outcome(Ok(issued.dto), st.(storage := issued.storage))
  }

  /** Login does not depend on the password or on the hasher's verdict. */
  lemma LoginIgnoresPassword(props: Props, st: Session, auth: AuthDto, verify: (string, string) -> bool,
                             otherPassword: string, otherVerify: (string, string) -> bool, now: nat)
    ensures Login(props, st, auth, verify, now) == Login(props, st, auth.(password := otherPassword), otherVerify, now)
  {
  }

  /** A known user with a password the hasher rejects still logs in. */
  lemma WrongPasswordLogsIn(props: Props, st: Session, auth: AuthDto, now: nat)
    requires Truthy(auth.email) && exists u :: u in st.users && u.email == auth.email.value
    ensures var rejectAll := (h: string, p: string) => false;
      && VerifyMatchAwaited(FindLoginUser(st.users, auth).value, auth.password, rejectAll).Err?
      && Login(props, st, auth, rejectAll, now).result.Ok?
  {
  }

  /** The corrected login: the password check is awaited and a rejected
      password fails with Unauthorized. */
  function LoginIntended(props: Props, st: Session, auth: AuthDto, verify: (string, string) -> bool, now: nat)
    : (r: Outcome)
    ensures r.state.users == st.users
    ensures r.result.Ok? <==>
      FindLoginUser(st.users, auth).Ok? && verify(FindLoginUser(st.users, auth).value.passwordHash, auth.password)
    ensures FindLoginUser(st.users, auth).Ok? && !verify(FindLoginUser(st.users, auth).value.passwordHash, auth.password)
      ==> r == Outcome(Err(Unauthorized), st)
  {
    match FindLoginUser(st.users, auth)
    case Err(e) => Outcome(Err(e), st)
    case Ok(user) =>
      match VerifyMatchAwaited(user, auth.password, verify)
      case Err(e) => Outcome(Err(e), st)
      case Ok(_) =>
        var issued := IssueTokenPair(props, st.storage, user, now);
        Outcome(Ok(issued.dto), st.(storage := issued.storage))
  }

  /** After a signup, logging in with the new email succeeds for the new user. */
  lemma LoginAfterSignup(props: Props, st: Session, reg: RegisterDto, hashed: string, uid: string,
                         now: nat, password: string, verify: (string, string) -> bool, later: nat)
    requires Unique(st.users) && reg.email != ""
    requires Signup(props, st, reg, hashed, uid, None, now).result.Ok?
    ensures var st2 := Signup(props, st, reg, hashed, uid, None, now).state;
      var r := Login(props, st2, AuthDto(None, Some(reg.email), password), verify, later);
      r.result.Ok? && Decode(r.result.value.accessToken) == Some(Claims(Access, uid, reg.email))
  {
  }

  // ---------------------------------------------------------------- refresh

  /** `indexOf`: the first position of `t` in `s`, or -1. */
  function IndexOf(s: seq<Token>, t: Token): (i: int)
    ensures i == -1 <==> t !in s
    ensures i != -1 ==> 0 <= i < |s| && s[i] == t
    ensures forall j :: 0 <= j < i ==> s[j] != t
  {
    if |s| == 0 then -1
    else if s[0] == t then 0
    else
      var i := IndexOf(s[1..], t);
      if i == -1 then -1 else i + 1
  }

  /** `splice(i, 1)`: `s` without its element at `i`. */
  function RemoveAt(s: seq<Token>, i: int): (r: seq<Token>)
    requires 0 <= i < |s|
    ensures |r| == |s| - 1
    ensures multiset(r) == multiset(s) - multiset{s[i]}
    ensures forall j :: 0 <= j < i ==> r[j] == s[j]
    ensures forall j :: i <= j < |r| ==> r[j] == s[j + 1]
  {
    assert s == s[..i] + [s[i]] + s[i + 1..];
    s[..i] + s[i + 1..]
  }

  /** The part of a redemption after the token has been taken off the list:
      decode it, look up its subject and issue a new pair. Both failures read
      a property of an absent value (TypeError); the token stays consumed. */
  function Reissue(props: Props, users: UserTable, rest: seq<Token>, token: Token, now: nat): (r: Outcome)
    ensures r.state.users == users
    ensures r.result.Ok? <==> Decode(token).Some? && exists u :: u in users && u.uid == Decode(token).value.sub
    ensures r.result.Err? ==> r == Outcome(Err(TypeError), Session(rest, users))
    ensures r.result.Ok? ==>
      && r.state.storage == rest + [r.result.value.refreshToken]
      && (exists u :: u in users && u.uid == Decode(token).value.sub
            && r.result.value.accessToken == Sign(Claims(Access, u.uid, u.email), props.access, now)
            && r.result.value.refreshToken == Sign(Claims(Refresh, u.uid, u.email), props.access, now)
            && r.result.value == IssueTokenPair(props, rest, u, now).dto)
    ensures r.result.Ok? ==> r.result.value.expiresIn == props.access.expiresIn
  {
    match Decode(token)
    case None => Outcome(Err(TypeError), Session(rest, users))
    case Some(payload) =>
      match FindUnique(users, ByUid, payload.sub)
      case None => Outcome(Err(TypeError), Session(rest, users))
      case Some(user) =>
        var issued := IssueTokenPair(props, rest, user, now);
        Outcome(Ok(issued.dto), Session(issued.storage, users))
  }

  /** Exchanges a refresh token for a new pair. Only list membership decides:
      the token is decoded, not verified. The first occurrence is removed
      before the subject is looked up, so a failure afterwards still consumes
      it. */
  function RefreshToken(props: Props, st: Session, token: Token, now: nat): (r: Outcome)
    ensures token !in st.storage ==> r == Outcome(Err(Unauthorized), st)
    ensures token in st.storage ==>
      r == Reissue(props, st.users, RemoveAt(st.storage, IndexOf(st.storage, token)), token, now)
    ensures r.state.users == st.users
    ensures r.result.Ok? <==>
      token in st.storage && Decode(token).Some? && exists u :: u in st.users && u.uid == Decode(token).value.sub
    ensures token in st.storage && r.result.Err? ==>
      r.result == Err(TypeError) && multiset(r.state.storage) == multiset(st.storage) - multiset{token}
  {
    var index := IndexOf(st.storage, token);
    if index == -1 then Outcome(Err(Unauthorized), st)
    else Reissue(props, st.users, RemoveAt(st.storage, index), token, now)
  }

  /** Each redemption removes one occurrence of the token; it comes back
      only if the new refresh token is the very same string. */
  lemma RefreshConsumesOneOccurrence(props: Props, st: Session, token: Token, now: nat)
    requires token in st.storage
    ensures var r := RefreshToken(props, st, token, now);
      multiset(r.state.storage)[token] ==
        multiset(st.storage)[token] - 1 + (if r.result.Ok? && r.result.value.refreshToken == token then 1 else 0)
  {
  }

  /** A token held once is redeemable at most once, unless the new token is
      issued in the same second as the redeemed one. */
  lemma RedeemedTokenIsSpent(props: Props, st: Session, token: Token, now: nat, later: nat)
    requires multiset(st.storage)[token] == 1
    requires token.Signed? ==> token.issuedAt != now
    ensures var st2 := RefreshToken(props, st, token, now).state;
      RefreshToken(props, st2, token, later) == Outcome(Err(Unauthorized), st2)
  {
  }

  /** Signing is deterministic within a second: a refresh in the same second
      as the redeemed token's issue hands the same token back, so it can be
      redeemed again. */
  lemma SameSecondRefreshReissuesToken(props: Props, user: User, now: nat)
    ensures var token := Sign(Claims(Refresh, user.uid, user.email), props.access, now);
      var st := Session([token], [user]);
      var r := RefreshToken(props, st, token, now);
      && r.result.Ok? && r.result.value.refreshToken == token
      && RefreshToken(props, r.state, token, now).result.Ok?
  {
  }

  /** Every listed token is a refresh token signed with the access options. */
  predicate StorageWf(props: Props, storage: seq<Token>) {
    forall t :: t in storage ==> t.Signed? && t.claims.kind == Refresh && t.options == props.access
  }

  /** Signup lists only what issuing a pair lists. */
  lemma SignupKeepsStorageWf(props: Props, st: Session, reg: RegisterDto, hashed: string, uid: string,
                             fault: Option<DbError>, now: nat)
    requires StorageWf(props, st.storage)
    ensures StorageWf(props, Signup(props, st, reg, hashed, uid, fault, now).state.storage)
  {
  }

  /** Login lists only what issuing a pair lists. */
  lemma LoginKeepsStorageWf(props: Props, st: Session, auth: AuthDto, verify: (string, string) -> bool, now: nat)
    requires StorageWf(props, st.storage)
    ensures StorageWf(props, Login(props, st, auth, verify, now).state.storage)
  {
  }

  /** A redemption keeps the list well formed: removal drops an element and
      the reissue appends a refresh token signed with the access options. */
  lemma RefreshKeepsStorageWf(props: Props, st: Session, token: Token, now: nat)
    requires StorageWf(props, st.storage)
    ensures StorageWf(props, RefreshToken(props, st, token, now).state.storage)
  {
  }

  /** An access token is never listed, so it can never be redeemed. */
  lemma AccessTokenIsNotRedeemable(props: Props, st: Session, token: Token, now: nat)
    requires StorageWf(props, st.storage)
    requires Decode(token).Some? && Decode(token).value.kind == Access
    ensures RefreshToken(props, st, token, now) == Outcome(Err(Unauthorized), st)
  {
  }
}

=== FILE: tag_controller.dfy ===
/** The tag endpoints: query defaults, the page envelope, the ownership gate in
    front of edit and delete, and the result of batch creation. */
module TagController {
  import opened Wrappers
  import opened Models
  import opened Errors
  import opened UserStore
  import opened TagDtos
  import opened TagOrdering
  import opened Views
  import opened Pagination
  import opened TagService

  /** Query defaults of the listing endpoint. */
  const DefaultOffset: nat := 0
  const DefaultLength: nat := 10
  const DefaultSortBy: string := "sortOrder"

  /** The view of a listed row: the joined creator becomes the explicit creator. */
  function ListedView(j: Joined): TagDto {
    TagDtoOf(j.tag, None, j.creator)
  }

  /** `GET /tags`: one page of the listing, absent query values replaced by
      their defaults. */
  function GetPaginated(db: TagDb, users: UserTable, offset: Option<nat>, length: Option<nat>,
                        sortBy: Option<string>): (p: Page<TagDto>)
    ensures Consistent(p)
    ensures p.meta.offset == offset.GetOr(DefaultOffset)
    ensures p.meta.length == length.GetOr(DefaultLength)
    ensures p.meta.quantity <= p.meta.length && p.meta.quantity <= |db.rows|
    ensures var listed := GetAllIncludeCreator(db, users, Some(offset.GetOr(DefaultOffset)),
                                               Some(length.GetOr(DefaultLength)), Some(sortBy.GetOr(DefaultSortBy)));
      && |p.data| == |listed|
      && forall i :: 0 <= i < |listed| ==>
           && p.data[i].id == listed[i].tag.id
           && p.data[i].name == listed[i].tag.name
           && p.data[i].sortOrder == listed[i].tag.sortOrder
           && (p.data[i].creator.Some? <==> listed[i].creator.Some?)
           && (p.data[i].creator.Some? ==>
                 && p.data[i].creator.value.uid == listed[i].creator.value.uid
                 && p.data[i].creator.value.email == listed[i].creator.value.email
                 && p.data[i].creator.value.nickname == listed[i].creator.value.nickname
                 && p.data[i].creator.value.tags == [])
  {
    var o := offset.GetOr(DefaultOffset);
    var n := length.GetOr(DefaultLength);
    var tags := GetAllIncludeCreator(db, users, Some(o), Some(n), Some(sortBy.GetOr(DefaultSortBy)));
    NewPage(seq(|tags|, i requires 0 <= i < |tags| => ListedView(tags[i])), o, n)
  }

  /** Without `sortBy` the page is ordered by ascending sort order. */
  lemma DefaultOrderIsSortOrder(db: TagDb, users: UserTable, offset: Option<nat>, length: Option<nat>)
    ensures var p := GetPaginated(db, users, offset, length, None);
      forall i, j :: 0 <= i < j < |p.data| ==> p.data[i].sortOrder <= p.data[j].sortOrder
  {
  }

  /** With no tags stored, the listing with all defaults is the default page. */
  lemma EmptyTableGivesDefaultPage(db: TagDb, users: UserTable)
    requires db.rows == map[]
    ensures GetPaginated(db, users, None, None, None) == NewPage()
  {
  }

  /** The first tag of a page starting at offset 0 precedes every stored tag
      in the requested order: with `sortBy=name` it has the least name. */
  lemma FirstOfFirstPageIsLeast(db: TagDb, users: UserTable, length: nat, sortBy: string, t: Tag)
    requires length >= 1 && t in db.rows.Values
    ensures var p := GetPaginated(db, users, Some(0), Some(length), Some(sortBy));
      && |p.data| >= 1
      && (sortBy == "name" ==> LexLe(p.data[0].name, t.name))
      && (sortBy == "sortOrder" ==> p.data[0].sortOrder <= t.sortOrder)
  {
    var key := KeyFor(Some(sortBy));
    var l := Listing(db, key);
    ListingIsSortedPermutation(db, key);
    assert t in l;
    var j :| 0 <= j < |l| && l[j] == t;
    if j == 0 {
      LeReflexive(key, t);
    }
    assert Le(key, l[0], t);
    var listed := GetAllIncludeCreator(db, users, Some(0), Some(length), Some(sortBy));
    assert listed[0].tag == l[0];
  }

  /** `GET /tags/:id`: the tag with its creator, or NotFound. */
  function GetById(db: TagDb, users: UserTable, id: int): (r: Result<TagDto, Error>)
    ensures r.Ok? <==> id in db.rows
    ensures r.Err? ==> r.error == NotFound
    ensures r.Ok? ==>
      && r.value.id == db.rows[id].id && r.value.name == db.rows[id].name && r.value.sortOrder == db.rows[id].sortOrder
      && (r.value.creator.Some? <==> exists u :: u in users && u.uid == db.rows[id].creatorId)
    ensures r.Ok? && r.value.creator.Some? ==>
      var u := FindUnique(users, ByUid, db.rows[id].creatorId);
      && u.Some?
      && r.value.creator.value.uid == db.rows[id].creatorId
      && r.value.creator.value.email == u.value.email
      && r.value.creator.value.nickname == u.value.nickname
      && r.value.creator.value.tags == []
  {
    var joined :- GetByIdIncludeCreator(db, users, id);
    Ok(TagDtoOf(joined.tag, joined.creator, None))
  }

  /** `POST /tags`: creates one tag owned by the caller. */
  function Create(db: TagDb, users: UserTable, uid: string, dto: TagInput): (r: Step<TagDto>)
    ensures r.result.Ok? <==> FindUnique(users, ByUid, uid).Some?
    ensures r.result.Err? ==> r.result.error == Store(KnownRequest(ForeignKeyViolation))
    ensures r.result.Ok? ==>
      && r.result.value.id == db.nextId && r.db.nextId == db.nextId + 1
      && r.db.rows == db.rows[db.nextId := Tag(db.nextId, dto.name, dto.sortOrder, uid)]
    ensures r.result.Ok? ==>
      && r.result.value.name == dto.name && r.result.value.sortOrder == dto.sortOrder
      && r.result.value.creator.None?
      && r.result.value.id in r.db.rows && r.db.rows[r.result.value.id].creatorId == uid
    ensures r.result.Err? ==> r.db == db
  {
    var step := CreateForUser(db, users, uid, dto);
    match step.result
    case Err(e) => Step(Err(e), step.db)
    case Ok(tag) => Step(Ok(TagDtoOf(tag, None, None)), step.db)
  }

  /** The names requested by a batch. */
  function Names(dtos: seq<TagInput>): (names: seq<string>)
    ensures |names| == |dtos|
    ensures forall i :: 0 <= i < |dtos| ==> names[i] == dtos[i].name
  {
    seq(|dtos|, i requires 0 <= i < |dtos| => dtos[i].name)
  }

  /** `map` of the plain view over the rows: one view without creator per
      row, position for position. */
  function PlainViews(tags: seq<Tag>): (views: seq<TagDto>)
    ensures |views| == |tags|
    ensures forall i :: 0 <= i < |tags| ==> views[i] == TagDtoOf(tags[i], None, None)
  {
    seq(|tags|, i requires 0 <= i < |tags| => TagDtoOf(tags[i], None, None))
  }

  /** The views hold exactly the views of the rows. */
  lemma PlainViewsMembers(tags: seq<Tag>)
    ensures forall t :: t in tags ==> TagDtoOf(t, None, None) in PlainViews(tags)
    ensures forall d :: d in PlainViews(tags) ==> exists t :: t in tags && d == TagDtoOf(t, None, None)
  {
    var views := PlainViews(tags);
    forall t | t in tags
      ensures TagDtoOf(t, None, None) in views
    {
      var i :| 0 <= i < |tags| && tags[i] == t;
      assert views[i] == TagDtoOf(t, None, None);
    }
    forall d | d in views
      ensures exists t :: t in tags && d == TagDtoOf(t, None, None)
    {
      var i :| 0 <= i < |views| && views[i] == d;
      assert tags[i] in tags;
    }
  }

  /** `POST /tags/multiple`: creates the batch, then returns every stored tag
      whose name is one of the requested names, each once. */
  function CreateMultiple(db: TagDb, users: UserTable, uid: string, dtos: seq<TagInput>): (r: Step<seq<TagDto>>)
    ensures r.result.Err? <==> |dtos| > 0 && FindUnique(users, ByUid, uid).None?
    ensures r.result.Err? ==> r.result.error == Store(KnownRequest(ForeignKeyViolation))
    ensures r.result.Err? ==> r.db == db
    ensures r.result.Ok? ==>
      && r.db.nextId == db.nextId + |dtos|
      && RowsFrom(r.db.rows, db.nextId, uid, dtos)
      && (forall id :: id in r.db.rows && !(db.nextId <= id < db.nextId + |dtos|) ==>
            id in db.rows && r.db.rows[id] == db.rows[id])
    ensures r.result.Ok? ==>
      && (forall t :: t in r.db.rows.Values && t.name in Names(dtos) ==> TagDtoOf(t, None, None) in r.result.value)
      && (forall d :: d in r.result.value ==>
            exists t :: t in r.db.rows.Values && t.name in Names(dtos) && d == TagDtoOf(t, None, None))
    ensures Wf(db) && r.result.Ok? ==>
      forall i, j :: 0 <= i < |r.result.value| && 0 <= j < |r.result.value| && i != j ==>
        r.result.value[i].id != r.result.value[j].id
  {
    var step := CreateManyForUser(db, users, uid, dtos);
    if step.result.Err? then Step(Err(step.result.error), db)
    else
      var found := GetManyByName(step.db, Names(dtos));
      PlainViewsMembers(found);
      Step(Ok(PlainViews(found)), step.db)
  }

  /** Batch creation returns tags that existed before and tags of other
      users whenever their names were requested. */
  lemma CreateMultipleReturnsExistingTags(db: TagDb, users: UserTable, uid: string, dtos: seq<TagInput>, t: Tag)
    requires Wf(db) && t in db.rows.Values && t.name in Names(dtos)
    requires |dtos| == 0 || FindUnique(users, ByUid, uid).Some?
    ensures TagDtoOf(t, None, None) in CreateMultiple(db, users, uid, dtos).result.value
  {
  }

  /** `PUT /tags/:id`: only the creator may edit; a missing tag fails with
      NotFound before ownership is considered. */
  function EditById(db: TagDb, uid: string, tagId: int, dto: TagInput): (r: Step<TagDto>)
    ensures tagId !in db.rows ==> r == Step(Err(NotFound), db)
    ensures tagId in db.rows && db.rows[tagId].creatorId != uid ==> r == Step(Err(Forbidden), db)
    ensures tagId in db.rows && db.rows[tagId].creatorId == uid ==>
      && r.result.Ok?
      && r.result.value == TagDto(db.rows[tagId].id, dto.name, dto.sortOrder, None)
      && r.db.rows == db.rows[tagId := db.rows[tagId].(name := dto.name, sortOrder := dto.sortOrder)]
      && r.db.nextId == db.nextId
  {
    match IsUidCreatorOfTagById(db, uid, tagId)
    case Err(e) => Step(Err(e), db)
    case Ok(owner) =>
      if !owner then Step(Err(Forbidden), db)
      else
        var step := TagService.EditById(db, tagId, dto);
        match step.result
        case Err(e) => Step(Err(e), step.db)
        case Ok(tag) => Step(Ok(TagDtoOf(tag, None, None)), step.db)
  }

  /** `DELETE /tags/:id`: only the creator may delete; a missing tag fails
      with NotFound before ownership is considered. The deletion is not
      awaited, so its own outcome never reaches the caller. */
  function DeleteById(db: TagDb, uid: string, tagId: int): (r: Step<()>)
    ensures tagId !in db.rows ==> r == Step(Err(NotFound), db)
    ensures tagId in db.rows && db.rows[tagId].creatorId != uid ==> r == Step(Err(Forbidden), db)
    ensures tagId in db.rows && db.rows[tagId].creatorId == uid ==>
      r.result.Ok? && r.db.rows == db.rows - {tagId} && r.db.nextId == db.nextId
  {
    match IsUidCreatorOfTagById(db, uid, tagId)
    case Err(e) => Step(Err(e), db)
    case Ok(owner) =>
      if !owner then Step(Err(Forbidden), db)
      else Step(Ok(()), TagService.DeleteById(db, tagId).db)
  }

  /** After the owner deletes a tag, reading it fails with NotFound. */
  lemma DeleteThenGetIsNotFound(db: TagDb, users: UserTable, uid: string, tagId: int)
    requires tagId in db.rows && db.rows[tagId].creatorId == uid
    ensures GetById(DeleteById(db, uid, tagId).db, users, tagId) == Err(NotFound)
  {
  }

  /** After the owner edits a tag, reading it shows the new name and sort order
      under the same id and creator. */
  lemma EditThenGetShowsEdit(db: TagDb, users: UserTable, uid: string, tagId: int, dto: TagInput)
    requires tagId in db.rows && db.rows[tagId].creatorId == uid
    ensures var after := EditById(db, uid, tagId, dto).db;
      && tagId in after.rows && after.rows[tagId].creatorId == uid
      && GetById(after, users, tagId).Ok?
      && GetById(after, users, tagId).value.name == dto.name
      && GetById(after, users, tagId).value.sortOrder == dto.sortOrder
  {
  }
}

=== FILE: tag_dtos.dfy ===
/** Request bodies of the tag endpoints. Creating and editing a tag share the
    same rules: a non-empty string name and an optional integer sort order
    whose declared default is 0. The validation pipe instantiates the body
    class, so an absent sort order arrives as that default. */
module TagDtos {
  import opened Wrappers
  import opened Errors

  /** A tag body as sent; `sortOrder` is a JSON number. */
  datatype TagBody = TagBody(name: Option<string>, sortOrder: Option<real>)

  /** A validated tag body, defaults applied. */
  datatype TagInput = TagInput(name: string, sortOrder: int)

  /** The declared default of `sortOrder`. */
  const DefaultSortOrder: int := 0

  /** `IsInt` on a number: it has no fractional part. */
  predicate IsInt(x: real) {
    x.Floor as real == x
  }

  /** Validation of a `CreateTagDto` or `EditTagDto` body. */
  function ValidateTagBody(b: TagBody): (r: Result<TagInput, Error>)
    ensures r.Ok? <==> b.name.Some? && b.name.value != "" && (b.sortOrder.Some? ==> IsInt(b.sortOrder.value))
    ensures r.Ok? ==> r.value.name == b.name.value
    ensures r.Ok? && b.sortOrder.Some? ==> r.value.sortOrder as real == b.sortOrder.value
    ensures r.Ok? && b.sortOrder.None? ==> r.value.sortOrder == 0
    ensures r.Err? ==> r.error == BadRequest
  {
    var nameOk := b.name.Some? && b.name.value != "";
    var sortOk := b.sortOrder.None? || IsInt(b.sortOrder.value);
    if !(nameOk && sortOk) then Err(BadRequest)
    else
      var order := if b.sortOrder.Some? then b.sortOrder.value.Floor else DefaultSortOrder;
      Ok(TagInput(b.name.value, order))
  }
}

=== FILE: tag_ordering.dfy ===
/** How tag listings are ordered: the enumerated sort keys, the order each key
    induces on tags, a stable insertion sort, and the id order in which the
    rows of the tag table are read. */
module TagOrdering {
  import opened Wrappers
  import opened Models
  import opened IntSets

  /** The orderings a listing can request. */
  datatype SortKey = ById | ByName | BySortOrder

  /** The ordering chosen for a `sortBy` value: the two known names select
      their column, anything else (or nothing) falls back to ascending id. */
  function KeyFor(sorting: Option<string>): (k: SortKey)
    ensures k == ByName <==> sorting == Some("name")
    ensures k == BySortOrder <==> sorting == Some("sortOrder")
  {
    if sorting == Some("name") then ByName
    else if sorting == Some("sortOrder") then BySortOrder
    else ById
  }

  // ------------------------------------------------------- string order

  /** Lexicographic order on strings, character by character. */
  predicate LexLe(a: string, b: string)
    decreases |a|
  {
    |a| == 0 || (|b| > 0 && (a[0] < b[0] || (a[0] == b[0] && LexLe(a[1..], b[1..]))))
  }

  lemma {:induction false} LexLeReflexive(a: string)
    ensures LexLe(a, a)
    decreases |a|
  {
    if |a| > 0 {
      LexLeReflexive(a[1..]);
    }
  }

  lemma {:induction false} LexLeTotal(a: string, b: string)
    ensures LexLe(a, b) || LexLe(b, a)
    decreases |a|
  {
    if |a| > 0 && |b| > 0 && a[0] == b[0] {
      LexLeTotal(a[1..], b[1..]);
    }
  }

  lemma {:induction false} LexLeTransitive(a: string, b: string, c: string)
    requires LexLe(a, b) && LexLe(b, c)
    ensures LexLe(a, c)
    decreases |a|
  {
    if |a| > 0 && a[0] == b[0] && b[0] == c[0] {
      LexLeTransitive(a[1..], b[1..], c[1..]);
    }
  }

  // ---------------------------------------------------------- tag order

  /** `a` may come before `b` in a listing ordered by `k` (ascending). */
  predicate Le(k: SortKey, a: Tag, b: Tag) {
    match k
    case ById => a.id <= b.id
    case ByName => LexLe(a.name, b.name)
    case BySortOrder => a.sortOrder <= b.sortOrder
  }

  lemma LeReflexive(k: SortKey, a: Tag)
    ensures Le(k, a, a)
  {
    if k == ByName {
      LexLeReflexive(a.name);
    }
  }

  lemma LeTotal(k: SortKey, a: Tag, b: Tag)
    ensures Le(k, a, b) || Le(k, b, a)
  {
    if k == ByName {
      LexLeTotal(a.name, b.name);
    }
  }

  lemma LeTransitive(k: SortKey, a: Tag, b: Tag, c: Tag)
    requires Le(k, a, b) && Le(k, b, c)
    ensures Le(k, a, c)
  {
    if k == ByName {
      LexLeTransitive(a.name, b.name, c.name);
    }
  }

  /** `s` is in ascending `k` order. */
  predicate Sorted(k: SortKey, s: seq<Tag>) {
    forall i, j :: 0 <= i < j < |s| ==> Le(k, s[i], s[j])
  }

  /** Inserts `t` before the first element of `s` it may precede. */
  function Insert(k: SortKey, t: Tag, s: seq<Tag>): (r: seq<Tag>)
    ensures multiset(r) == multiset(s) + multiset{t}
  {
    if |s| == 0 then [t]
    else if Le(k, t, s[0]) then [t] + s
    else
      assert s == [s[0]] + s[1..];
      [s[0]] + Insert(k, t, s[1..])
  }

  /** Every element of a sorted sequence is preceded-or-equalled by its head. */
  lemma HeadIsLeast(k: SortKey, s: seq<Tag>, x: Tag)
    requires Sorted(k, s) && |s| > 0 && x in s
    ensures Le(k, s[0], x)
  {
    var j :| 0 <= j < |s| && s[j] == x;
    if j == 0 {
      LeReflexive(k, x);
    }
  }

  /** A sorted sequence stays sorted under a head that precedes all of it. */
  lemma ConsSorted(k: SortKey, h: Tag, rest: seq<Tag>)
    requires Sorted(k, rest)
    requires forall x :: x in rest ==> Le(k, h, x)
    ensures Sorted(k, [h] + rest)
  {
  }

  lemma {:induction false} InsertSorted(k: SortKey, t: Tag, s: seq<Tag>)
    requires Sorted(k, s)
    ensures Sorted(k, Insert(k, t, s))
  {
    if |s| == 0 {
    } else if Le(k, t, s[0]) {
      forall x | x in s
        ensures Le(k, t, x)
      {
        HeadIsLeast(k, s, x);
        LeTransitive(k, t, s[0], x);
      }
      ConsSorted(k, t, s);
    } else {
      var rest := Insert(k, t, s[1..]);
      InsertSorted(k, t, s[1..]);
      LeTotal(k, t, s[0]);
      forall x | x in rest
        ensures Le(k, s[0], x)
      {
        assert x in multiset(rest);
        if x != t {
          assert x in multiset(s[1..]);
          HeadIsLeast(k, s, x);
        }
      }
      ConsSorted(k, s[0], rest);
    }
  }

  /** Stable insertion sort by `k`. */
  function Sort(k: SortKey, s: seq<Tag>): (r: seq<Tag>)
    ensures multiset(r) == multiset(s)
  {
    if |s| == 0 then []
    else
      assert s == [s[0]] + s[1..];
      Insert(k, s[0], Sort(k, s[1..]))
  }

  lemma {:induction false} SortSorted(k: SortKey, s: seq<Tag>)
    ensures Sorted(k, Sort(k, s))
  {
    if |s| > 0 {
      SortSorted(k, s[1..]);
      InsertSorted(k, s[0], Sort(k, s[1..]));
    }
  }

  // ----------------------------------------------------------- id order

  /** The primary key of every row is the key it is stored under. */
  predicate IdsMatchKeys(rows: map<int, Tag>) {
    forall id :: id in rows ==> rows[id].id == id
  }

  /** The rows of the tag table in ascending key order. */
  function ByIdOrder(rows: map<int, Tag>): (r: seq<Tag>)
    ensures |r| == |rows|
    ensures forall t :: t in r <==> t in rows.Values
    decreases |rows|
  {
    if |rows| == 0 then []
    else
      var m := MinKey(rows.Keys);
      var rest := rows - {m};
      assert rows.Keys == rest.Keys + {m};
      assert forall t :: t in rows.Values <==> t == rows[m] || t in rest.Values by {
        forall t | t in rows.Values
          ensures t == rows[m] || t in rest.Values
        {
          var k :| k in rows && rows[k] == t;
          if k != m {
            assert k in rest;
          }
        }
      }
      [rows[m]] + ByIdOrder(rest)
  }

  /** Ids strictly ascend along `s`. */
  predicate IdsAscending(s: seq<Tag>) {
    forall i, j :: 0 <= i < j < |s| ==> s[i].id < s[j].id
  }

  /** Read in key order, rows whose ids match their keys come in strictly ascending id order. */
  lemma {:induction false} ByIdOrderAscending(rows: map<int, Tag>)
    requires IdsMatchKeys(rows)
    ensures IdsAscending(ByIdOrder(rows))
    decreases |rows|
  {
    if |rows| > 0 {
      var m := MinKey(rows.Keys);
      var rest := rows - {m};
      ByIdOrderAscending(rest);
      var r := ByIdOrder(rows);
      var tail := ByIdOrder(rest);
      assert r == [rows[m]] + tail;
      forall j | 0 < j < |r|
        ensures r[0].id < r[j].id
      {
        assert r[j] in tail;
        assert r[j] in rest.Values;
        var k :| k in rest && rest[k] == r[j];
        assert k in rows.Keys && k != m;
      }
      forall i, j | 0 <= i < j < |r|
        ensures r[i].id < r[j].id
      {
        if i > 0 {
          assert r[i] == tail[i - 1] && r[j] == tail[j - 1];
          assert tail[i - 1].id < tail[j - 1].id;
        } else {
          assert r[0].id < r[j].id;
        }
      }
    }
  }

  /** An id-ascending sequence stays so under a head of smaller id than all of it. */
  lemma ConsIdsAscending(h: Tag, rest: seq<Tag>)
    requires IdsAscending(rest)
    requires forall x :: x in rest ==> h.id < x.id
    ensures IdsAscending([h] + rest)
  {
    var r := [h] + rest;
    forall i, j | 0 <= i < j < |r|
      ensures r[i].id < r[j].id
    {
      assert r[j] == rest[j - 1];
      if i > 0 {
        assert r[i] == rest[i - 1];
      }
    }
  }

  /** No two elements of `s` share an id, so no row is listed twice. */
  predicate IdsDistinct(s: seq<Tag>) {
    forall i, j :: 0 <= i < |s| && 0 <= j < |s| && i != j ==> s[i].id != s[j].id
  }

  /** Ids are pairwise distinct in an id-ascending sequence. */
  lemma StrictIdsDistinct(s: seq<Tag>)
    requires IdsAscending(s)
    ensures IdsDistinct(s)
  {
  }
}

=== FILE: tag_service.dfy ===
/** The tag service: the Tag table as a map from id to row plus the next
    auto-increment id, and the queries and updates the service issues. */
module TagService {
  import opened Wrappers
  import opened Models
  import opened Errors
  import opened UserStore
  import opened TagDtos
  import opened TagOrdering

  datatype TagDb = TagDb(rows: map<int, Tag>, nextId: int)

  /** The table invariant the store keeps: every row is stored under its own
      id and every id was handed out by the auto-increment counter. */
  predicate Wf(db: TagDb) {
    && 1 <= db.nextId
    && forall id :: id in db.rows ==> db.rows[id].id == id && 1 <= id < db.nextId
  }

  /** The result of an operation together with the table afterwards. */
  datatype Step<T> = Step(result: Result<T, Error>, db: TagDb)

  /** A tag row loaded together with its creator relation. */
  datatype Joined = Joined(tag: Tag, creator: Option<User>)

  /** The creator relation of a row: the user its `creatorId` references. */
  function Creator(users: UserTable, t: Tag): Option<User> {
    FindUnique(users, ByUid, t.creatorId)
  }

  // ------------------------------------------------------------- lookups

  function GetById(db: TagDb, id: int): (r: Result<Tag, Error>)
    ensures r.Ok? <==> id in db.rows
    ensures r.Ok? ==> r.value == db.rows[id]
    ensures r.Err? ==> r.error == NotFound
  {
    if id in db.rows then Ok(db.rows[id]) else Err(NotFound)
  }

  /** Whether `uid` created the tag; a missing tag fails with NotFound. */
  function IsUidCreatorOfTagById(db: TagDb, uid: string, tagId: int): (r: Result<bool, Error>)
    ensures r.Err? <==> tagId !in db.rows
    ensures r.Err? ==> r.error == NotFound
    ensures r.Ok? ==> (r.value <==> db.rows[tagId].creatorId == uid)
  {
    var tag :- GetById(db, tagId);
    Ok(uid == tag.creatorId)
  }

  function GetByIdIncludeCreator(db: TagDb, users: UserTable, id: int): (r: Result<Joined, Error>)
    ensures r.Ok? <==> id in db.rows
    ensures r.Ok? ==> r.value.tag == db.rows[id]
    ensures r.Ok? && r.value.creator.Some? ==>
      r.value.creator.value in users && r.value.creator.value.uid == db.rows[id].creatorId
    ensures r.Ok? && r.value.creator.None? ==> forall u :: u in users ==> u.uid != db.rows[id].creatorId
    ensures r.Err? ==> r.error == NotFound
  {
    if id in db.rows then Ok(Joined(db.rows[id], Creator(users, db.rows[id]))) else Err(NotFound)
  }

  // ------------------------------------------------------------ listings

  /** Every row, ordered by `key`; rows with equal keys keep id order. */
  function Listing(db: TagDb, key: SortKey): seq<Tag> {
    Sort(key, ByIdOrder(db.rows))
  }

  /** The listing is a sorted permutation of the rows of the table. */
  lemma ListingIsSortedPermutation(db: TagDb, key: SortKey)
    ensures Sorted(key, Listing(db, key))
    ensures multiset(Listing(db, key)) == multiset(ByIdOrder(db.rows))
    ensures |Listing(db, key)| == |db.rows|
    ensures forall t :: t in Listing(db, key) <==> t in db.rows.Values
  {
    SortSorted(key, ByIdOrder(db.rows));
    var l := Listing(db, key);
    assert |l| == |multiset(l)|;
    forall t
      ensures t in l <==> t in db.rows.Values
    {
      assert t in l <==> t in multiset(l);
    }
  }

  /** Skips `skip` elements (none when absent), then keeps at most `take`
      (all when absent). */
  function Window<T>(s: seq<T>, skip: Option<nat>, take: Option<nat>): (r: seq<T>)
    ensures var from := if skip.GetOr(0) <= |s| then skip.GetOr(0) else |s|;
      && |r| == (if take.Some? && take.value < |s| - from then take.value else |s| - from)
      && forall i :: 0 <= i < |r| ==> r[i] == s[from + i]
  {
    var from := if skip.GetOr(0) <= |s| then skip.GetOr(0) else |s|;
    var to := if take.Some? && take.value < |s| - from then from + take.value else |s|;
    s[from..to]
  }

  /** A window of a sorted sequence is sorted and holds only its elements. */
  lemma WindowOfSorted(k: SortKey, s: seq<Tag>, skip: Option<nat>, take: Option<nat>)
    requires Sorted(k, s)
    ensures Sorted(k, Window(s, skip, take))
    ensures forall t :: t in Window(s, skip, take) ==> t in s
  {
  }

  /** `findMany` with skip, take and the ordering `sorting` selects, each
      row joined with its creator. */
  function GetAllIncludeCreator(db: TagDb, users: UserTable, offset: Option<nat>, length: Option<nat>,
                                sorting: Option<string>): (r: seq<Joined>)
    ensures length.Some? ==> |r| <= length.value
    ensures |r| <= |db.rows|
    ensures forall i :: 0 <= i < |r| ==> r[i].tag in db.rows.Values && r[i].creator == Creator(users, r[i].tag)
    ensures forall i, j :: 0 <= i < j < |r| ==> Le(KeyFor(sorting), r[i].tag, r[j].tag)
    ensures |r| == |Window(Listing(db, KeyFor(sorting)), offset, length)|
    ensures forall i :: 0 <= i < |r| ==> r[i].tag == Window(Listing(db, KeyFor(sorting)), offset, length)[i]
  {
    var key := KeyFor(sorting);
    var page := Window(Listing(db, key), offset, length);
    ListingIsSortedPermutation(db, key);
    WindowOfSorted(key, Listing(db, key), offset, length);
    seq(|page|, i requires 0 <= i < |page| => Joined(page[i], Creator(users, page[i])))
  }

  /** The rows of `s` that satisfy `keep`, in order, each as often as in `s`. */
  function Filter(s: seq<Tag>, keep: Tag -> bool): (r: seq<Tag>)
    ensures forall t :: t in r <==> t in s && keep(t)
    ensures forall t :: multiset(r)[t] == (if keep(t) then multiset(s)[t] else 0)
    ensures |r| <= |s|
  {
    if |s| == 0 then []
    else
      assert s == [s[0]] + s[1..];
      (if keep(s[0]) then [s[0]] else []) + Filter(s[1..], keep)
  }

  /** Filtering keeps the relative order of what it keeps, so ascending ids
      stay ascending. */
  lemma {:induction false} FilterKeepsIdsAscending(s: seq<Tag>, keep: Tag -> bool)
    requires IdsAscending(s)
    ensures IdsAscending(Filter(s, keep))
  {
    if |s| > 0 {
      var tail := s[1..];
      assert IdsAscending(tail) by {
        forall i, j | 0 <= i < j < |tail|
          ensures tail[i].id < tail[j].id
        {
          assert tail[i] == s[i + 1] && tail[j] == s[j + 1];
        }
      }
      FilterKeepsIdsAscending(tail, keep);
      var rest := Filter(tail, keep);
      if keep(s[0]) {
        forall x | x in rest
          ensures s[0].id < x.id
        {
          var k :| 0 <= k < |tail| && tail[k] == x;
          assert s[k + 1] == x;
        }
        ConsIdsAscending(s[0], rest);
        assert Filter(s, keep) == [s[0]] + rest;
      } else {
        assert Filter(s, keep) == rest;
      }
    }
  }

  /** Filtering the table read in key order lists no row twice. */
  lemma TableFilterIdsDistinct(db: TagDb, keep: Tag -> bool)
    ensures Wf(db) ==> IdsDistinct(Filter(ByIdOrder(db.rows), keep))
  {
    if Wf(db) {
      ByIdOrderAscending(db.rows);
      FilterKeepsIdsAscending(ByIdOrder(db.rows), keep);
      StrictIdsDistinct(Filter(ByIdOrder(db.rows), keep));
    }
  }

  /** `findMany` where the creator is `uid`: each such row, once. */
  function GetAllForUser(db: TagDb, uid: string): (r: seq<Tag>)
    ensures forall t :: t in r <==> t in db.rows.Values && t.creatorId == uid
    ensures Wf(db) ==> IdsDistinct(r)
  {
    var keep := (t: Tag) => t.creatorId == uid;
    TableFilterIdsDistinct(db, keep);
    Filter(ByIdOrder(db.rows), keep)
  }

  /** `findMany` where the name is one of `names`, whoever created the row:
      each such row, once. */
  function GetManyByName(db: TagDb, names: seq<string>): (r: seq<Tag>)
    ensures forall t :: t in r <==> t in db.rows.Values && t.name in names
    ensures Wf(db) ==> IdsDistinct(r)
  {
    var keep := (t: Tag) => t.name in names;
    TableFilterIdsDistinct(db, keep);
    Filter(ByIdOrder(db.rows), keep)
  }

  // ------------------------------------------------------------- updates

  /** The row `create` inserts for `uid` from a tag body. */
  function NewRow(id: int, uid: string, dto: TagInput): Tag {
    Tag(id, dto.name, dto.sortOrder, uid)
  }

  /** `create` with `creatorId` set to `uid`. The foreign key to the user
      table rejects a `uid` that no user has. */
  function CreateForUser(db: TagDb, users: UserTable, uid: string, dto: TagInput): (r: Step<Tag>)
    ensures r.result.Err? <==> FindUnique(users, ByUid, uid).None?
    ensures r.result.Err? ==> r.result.error == Store(KnownRequest(ForeignKeyViolation)) && r.db == db
    ensures r.result.Ok? ==>
      && r.result.value.creatorId == uid
      && r.result.value.name == dto.name
      && r.result.value.sortOrder == dto.sortOrder
      && r.result.value.id == db.nextId
      && r.db.rows == db.rows[db.nextId := r.result.value]
    ensures Wf(db) ==> Wf(r.db)
    ensures Wf(db) && r.result.Ok? ==> r.result.value.id !in db.rows
  {
    var tag := NewRow(db.nextId, uid, dto);
    if FindUnique(users, ByUid, uid).None? then Step(Err(Store(KnownRequest(ForeignKeyViolation))), db)
    else Step(Ok(tag), TagDb(db.rows[tag.id := tag], db.nextId + 1))
  }

  /** `rows` holds, at the ids from `from` on, one row per body created by
      `uid`, in body order. */
  predicate RowsFrom(rows: map<int, Tag>, from: int, uid: string, dtos: seq<TagInput>) {
    forall id :: from <= id < from + |dtos| ==> id in rows && rows[id] == NewRow(id, uid, dtos[id - from])
  }

  /** A row for the first body at `from`, followed by the rows of the rest. */
  lemma RowsFromCons(rows: map<int, Tag>, from: int, uid: string, dtos: seq<TagInput>)
    requires |dtos| > 0
    requires from in rows && rows[from] == NewRow(from, uid, dtos[0])
    requires RowsFrom(rows, from + 1, uid, dtos[1..])
    ensures RowsFrom(rows, from, uid, dtos)
  {
    forall id | from <= id < from + |dtos|
      ensures id in rows && rows[id] == NewRow(id, uid, dtos[id - from])
    {
      if id > from {
        assert dtos[1..][id - (from + 1)] == dtos[id - from];
      }
    }
  }

  /** Inserts one row per body, created by `uid`, with consecutive ids
      starting at the auto-increment counter. */
  function InsertRows(db: TagDb, uid: string, dtos: seq<TagInput>): (r: TagDb)
    ensures r.nextId == db.nextId + |dtos|
    ensures RowsFrom(r.rows, db.nextId, uid, dtos)
    ensures forall id :: id in r.rows && !(db.nextId <= id < db.nextId + |dtos|) ==>
      id in db.rows && r.rows[id] == db.rows[id]
    ensures db.rows.Keys <= r.rows.Keys
    ensures Wf(db) ==> Wf(r)
    decreases |dtos|
  {
    if |dtos| == 0 then db
    else
      var next := TagDb(db.rows[db.nextId := NewRow(db.nextId, uid, dtos[0])], db.nextId + 1);
      var r := InsertRows(next, uid, dtos[1..]);
      assert db.nextId in next.rows && db.nextId < next.nextId;
      assert r.rows[db.nextId] == next.rows[db.nextId];
      RowsFromCons(r.rows, db.nextId, uid, dtos);
      r
  }

  /** `createMany`: one row per body, all created by `uid`, with consecutive
      ids in body order; all or nothing. */
  function CreateManyForUser(db: TagDb, users: UserTable, uid: string, dtos: seq<TagInput>): (r: Step<()>)
    ensures r.result.Err? <==> |dtos| > 0 && FindUnique(users, ByUid, uid).None?
    ensures r.result.Err? ==> r.result.error == Store(KnownRequest(ForeignKeyViolation)) && r.db == db
    ensures r.result.Ok? ==>
      && r.db.nextId == db.nextId + |dtos|
      && RowsFrom(r.db.rows, db.nextId, uid, dtos)
      && (forall id :: id in r.db.rows && !(db.nextId <= id < db.nextId + |dtos|) ==>
            id in db.rows && r.db.rows[id] == db.rows[id])
    ensures Wf(db) ==> Wf(r.db)
  {
    if |dtos| > 0 && FindUnique(users, ByUid, uid).None? then
      Step(Err(Store(KnownRequest(ForeignKeyViolation))), db)
    else
      Step(Ok(()), InsertRows(db, uid, dtos))
  }

  /** `update` of the tag's name and sort order; a missing tag fails with NotFound. */
  function EditById(db: TagDb, id: int, dto: TagInput): (r: Step<Tag>)
    ensures r.result.Err? <==> id !in db.rows
    ensures r.result.Err? ==> r.result.error == NotFound && r.db == db
    ensures r.result.Ok? ==>
      && r.result.value == db.rows[id].(name := dto.name, sortOrder := dto.sortOrder)
      && r.db.rows.Keys == db.rows.Keys
      && r.db.rows[id] == r.result.value
      && r.db.nextId == db.nextId
    ensures forall k :: k in db.rows && k != id ==> k in r.db.rows && r.db.rows[k] == db.rows[k]
    ensures Wf(db) ==> Wf(r.db)
  {
    match GetById(db, id)
    case Err(e) => Step(Err(e), db)
    case Ok(tag) =>
      var updated := tag.(name := dto.name, sortOrder := dto.sortOrder);
      Step(Ok(updated), db.(rows := db.rows[id := updated]))
  }

  /** `delete` of the tag with this id; the store rejects a missing id. */
  function DeleteById(db: TagDb, id: int): (r: Step<()>)
    ensures r.result.Err? <==> id !in db.rows
    ensures r.result.Err? ==> r.result.error == Store(KnownRequest(RecordNotFound)) && r.db == db
    ensures r.result.Ok? ==> r.db.rows.Keys == db.rows.Keys - {id}
    ensures forall k :: k in r.db.rows ==> k in db.rows && r.db.rows[k] == db.rows[k]
    ensures Wf(db) ==> Wf(r.db)
  {
    if id !in db.rows then Step(Err(Store(KnownRequest(RecordNotFound))), db)
    else Step(Ok(()), db.(rows := db.rows - {id}))
  }
}

=== FILE: user_dtos.dfy ===
/** Request bodies of the user endpoints. */
module UserDtos {
  import opened Wrappers
  import opened Errors

  /** A profile edit: both fields optional. */
  datatype EditUserDto = EditUserDto(email: Option<string>, nickname: Option<string>)

  /** Validation of a profile edit: the email is checked for format only when
      present; a present nickname is a string and so always passes. */
  function ValidateEditUser(b: EditUserDto, isEmail: string -> bool): (r: Result<EditUserDto, Error>)
    ensures r.Ok? <==> (b.email.Some? ==> isEmail(b.email.value))
    ensures r.Ok? ==> r.value == b
    ensures r.Err? ==> r.error == BadRequest
  {
    match b.email
    case Some(e) => if isEmail(e) then Ok(b) else Err(BadRequest)
    case None => Ok(b)
  }
}

=== FILE: user_store.dfy ===
/** The User table and the lookups the services make on it. */
module UserStore {
  import opened Wrappers
  import opened Models

  /** The User table as the sequence of its rows. */
  type UserTable = seq<User>

  /** The unique columns a user can be looked up by. */
  datatype Column = ByUid | ByEmail | ByNickname

  function ColumnValue(u: User, col: Column): string {
    match col
    case ByUid => u.uid
    case ByEmail => u.email
    case ByNickname => u.nickname
  }

  /** The table satisfies its primary-key and unique constraints. */
  predicate Unique(users: UserTable) {
    forall i, j :: 0 <= i < j < |users| ==>
      && users[i].uid != users[j].uid
      && users[i].email != users[j].email
      && users[i].nickname != users[j].nickname
  }

  /** `findUnique` on one unique column: the row holding `value`, or nothing. */
  function FindUnique(users: UserTable, col: Column, value: string): (r: Option<User>)
    ensures r.None? <==> forall u :: u in users ==> ColumnValue(u, col) != value
    ensures r.Some? ==> r.value in users && ColumnValue(r.value, col) == value
  {
    if |users| == 0 then None
    else if ColumnValue(users[0], col) == value then Some(users[0])
    else FindUnique(users[1..], col, value)
  }

  /** Under the unique constraints, a lookup by a row's own column value finds that row. */
  lemma FindUniqueFindsRow(users: UserTable, col: Column, i: int)
    requires Unique(users)
    requires 0 <= i < |users|
    ensures FindUnique(users, col, ColumnValue(users[i], col)) == Some(users[i])
  {
  }

  /** True when a new row with these values would violate a unique constraint. */
  predicate Conflicts(users: UserTable, uid: string, email: string, nickname: string) {
    exists u :: u in users && (u.uid == uid || u.email == email || u.nickname == nickname)
  }

  /** The data a new user row is created from. */
  datatype UserCreation = UserCreation(email: string, nickname: string, passwordHash: string)

  /** `create` on the User table. `uid` is the key the store generates for the
      row and `fault` an environment failure (lost connection, ...) the store
      reports instead of answering. */
  function CreateUser(users: UserTable, data: UserCreation, uid: string, fault: Option<DbError>)
    : (r: Result<(User, UserTable), DbError>)
    ensures fault.Some? ==> r == Err(fault.value)
    ensures fault.None? ==>
      (r.Err? <==> Conflicts(users, uid, data.email, data.nickname))
    ensures r.Err? && fault.None? ==> r.error == KnownRequest(UniqueViolation)
    ensures r.Ok? ==>
      && r.value.0 == User(uid, data.email, data.nickname, data.passwordHash)
      && r.value.1 == users + [r.value.0]
    ensures r.Ok? && Unique(users) ==> Unique(r.value.1)
  {
    if fault.Some? then Err(fault.value)
    else if Conflicts(users, uid, data.email, data.nickname) then Err(KnownRequest(UniqueViolation))
    else
      var u := User(uid, data.email, data.nickname, data.passwordHash);
      Ok((u, users + [u]))
  }

  /** `delete` of the user with key `uid`: every other row is kept in order. */
  function DeleteUser(users: UserTable, uid: string): (r: UserTable)
    ensures forall u :: u in r <==> u in users && u.uid != uid
    ensures FindUnique(r, ByUid, uid).None?
    ensures |r| <= |users|
  {
    if |users| == 0 then []
    else if users[0].uid == uid then DeleteUser(users[1..], uid)
    else [users[0]] + DeleteUser(users[1..], uid)
  }
}

=== FILE: views.dfy ===
/** The outward views of tags and users (`TagDto`, `UserDto`) and their
    constructors. The two refer to each other: a tag view may carry its
    creator's view, and a user view carries the views of its tags. */
module Views {
  import opened Wrappers
  import opened Models

  datatype TagDto = TagDto(id: int, name: string, sortOrder: int, creator: Option<UserDto>)

  /** `passwordHash` is carried but marked as excluded from serialisation. */
  datatype UserDto = UserDto(uid: string, email: string, nickname: string,
                             passwordHash: Option<string>, tags: seq<TagDto>)

  /** `new TagDto(model, creator)`. `modelCreator` is the creator relation the
      row was loaded with, if any; the explicit `creator` wins over it. */
  function TagDtoOf(model: Tag, modelCreator: Option<User>, creator: Option<User>): (r: TagDto)
    decreases if creator.Some? || modelCreator.Some? then 2 else 0
    ensures r.id == model.id && r.name == model.name && r.sortOrder == model.sortOrder
    ensures r.creator.Some? <==> creator.Some? || modelCreator.Some?
    ensures r.creator.Some? ==>
      var source := if creator.Some? then creator.value else modelCreator.value;
      && r.creator.value.uid == source.uid
      && r.creator.value.email == source.email
      && r.creator.value.nickname == source.nickname
      && r.creator.value.tags == []
  {
    var c := if creator.Some? then creator else modelCreator;
    TagDto(model.id, model.name, model.sortOrder,
           if c.Some? then Some(UserDtoOf(c.value, None, [])) else None)
  }

  /** `new UserDto(model, tags)`. `modelTags` is the tags relation the row was
      loaded with, if any; when present (even empty) it wins over `tags`. */
  function UserDtoOf(model: User, modelTags: Option<seq<Tag>>, tags: seq<Tag> := []): (r: UserDto)
    decreases 1 + |if modelTags.Some? then modelTags.value else tags|
    ensures r.uid == model.uid && r.email == model.email && r.nickname == model.nickname
    ensures r.passwordHash == Some(model.passwordHash)
    ensures var source := if modelTags.Some? then modelTags.value else tags;
      && |r.tags| == |source|
      && forall i :: 0 <= i < |source| ==>
           && r.tags[i].id == source[i].id
           && r.tags[i].name == source[i].name
           && r.tags[i].sortOrder == source[i].sortOrder
           && r.tags[i].creator.None?
  {
    var source := if modelTags.Some? then modelTags.value else tags;
    UserDto(model.uid, model.email, model.nickname, Some(model.passwordHash),
            seq(|source|, i requires 0 <= i < |source| => TagDtoOf(source[i], None, None)))
  }
}

=== FILE: wrappers.dfy ===
/** Optional values and the success-or-throw outcome of a service call. */
module Wrappers {

  /** A request field or relation that is null or undefined (`None`) or holds a value. */
  datatype Option<+T> = None | Some(value: T) {

    /** The field with a default applied, as the controllers do for query values. */
    function GetOr(default: T): T {
      match this
      case Some(v) => v
      case None => default
    }
  }

  /** A resolved promise (`Ok`) or the error it rejects with (`Err`). The three
      members below let `:-` propagate the error, like an un-caught `await`. */
  datatype Result<+T, +E> = Ok(value: T) | Err(error: E) {

    predicate IsFailure() {
      Err?
    }

    function PropagateFailure<U>(): Result<U, E>
      requires Err?
    {
      Err(error)
    }

    function Extract(): T
      requires Ok?
    {
      value
    }
  }
}
